=== FILE: README.md ===
# Container Item Distributor: a Dafny model of its rule pipelines

The Container Item Distributor plugin for Skyrim reads rules from INI files
of the form `<file>_CID.ini`. Each key of the `[General]` section names a
container, by editor id or by `<form id>~<plugin>`. Each value of the key is
a rule for that container:

- `Item|n` adds `n` of an item.
- `-Item|n` removes `n`.
- `-Item` is meant to remove all of an item. In the current pipeline it
  does not: the value has already been joined with `/<file name>`, and the
  identifier is everything after the `-`, so it reads `Item/<file name>`.
  That resolves to no item unless a form is registered under exactly that
  spelling.
- `Old|n^New|m` replaces `n` of `Old` with `m` of `New`.
- `Old^New|m` replaces all of `Old`.

Different files may give rules that conflict, and the plugin picks one
winner per conflict.

The repository holds two generations of this pipeline, and the model keeps
them apart.

**The current pipeline** (`Maps`, `Parser`, `Utility`, `Conflicts`):

1. A value is joined with `/<file name>`.
2. It is classified by its punctuation shape.
3. It is tokenized into a seven-field `DistrToken`.
4. The token is routed into one of three conflict-test maps (add, remove,
   replace), keyed by container.
5. Conflict resolution walks each container's vector. A token that has a
   structurally different peer naming the same item is replaced by a winner
   chosen from among them. Every other token naming that item is then
   dropped.
6. Each surviving token becomes a `DistrObject`: its item and container are
   resolved against the game's form directory.

**The legacy pipeline** (`Distributor`) keeps rules as `token/filename`
strings:

1. `BuildConflictMap` records, for each rule that collides with another rule
   of the same container, the list of (file name, token) providers.
2. The preparation steps pick the provider with the alphabetically smallest
   file name.
3. They remember which items are resolved.
4. They resolve items to (object, count) placements per container.
5. Distribution turns placements into add and remove calls on the containers.
   These calls are recorded here as a trace of events.

**The shared modules:**

- `Base` holds `std::string::find` with its `npos` sentinel, including the
  wrap-around `npos + 1 == 0`, and substrings.
- `Numbers` holds `strtol` with base 0 and a 32-bit `long`.
- `Forms` abstracts the game's form directory as two partial maps and two
  capability flags: "is a bound object" and "is a container".

**Parameters for what the source leaves open:**

- Hash-map iteration order is an explicit `order` parameter listing each key
  once.
- Unstable sorts between equal keys are settled by an explicit chooser
  parameter.

## Model

| member | source | states |
|---|---|---|
| Base.Find | include/Maps.h:5 | `is_present` of `find(c)` holds exactly when `c` occurs; a found position holds `c` and no earlier position does |
| Base.LexLeqTotal | src/Distributor.cpp:131 | the file-name comparison the providers are sorted by relates every two names one way or the other |
| Base.LexLeqTransitive | src/Distributor.cpp:131 | that comparison is transitive, so a smallest file name exists |
| Numbers.StrToLReadsIntToString | include/Maps.h:7-9 | `strtol` reads back the decimal rendering of any 32-bit value, followed by any text that cannot continue a numeral |
| Numbers.ToInt32ReadsIntToString | include/Maps.h:7 | `to_int32` reads the longest leading integer and ignores the rest |
| Numbers.ToInt32ReadsCountBeforeFilename | include/Maps.h:7 | `to_int32("100/a_CID.ini")` is 100 |
| Numbers.ToUInt32ReadsNatToString | include/Maps.h:9 | `to_uint32` reads a non-negative decimal form id up to its first non-digit |
| Numbers.ToUInt32OfStrToL | include/Maps.h:9 | `to_uint32` is the `strtol` value, wrapped modulo 2^32 when negative |
| Numbers.ToUInt32WrapsNegative | include/Maps.h:9 | a negative numeral becomes its value plus 2^32 |
| Numbers.StrToLReadsNegative | include/Maps.h:7-9 | a leading `-` negates the numeral that follows |
| Numbers.StrToLOfNoDigits | include/Maps.h:7-9 | text that does not start with a sign, a digit or white space reads as 0 |
| Numbers.StrToLReadsHexNumeral | include/Maps.h:7-9 | base 0 reads `0x` followed by hexadecimal digits as their base-16 value, ignoring the text after the run |
| Numbers.StrToLReadsOctalNumeral | include/Maps.h:7-9 | base 0 reads any other leading `0` as an octal run, ignoring the text after it |
| Numbers.StrToLReadsHex | include/Maps.h:7-9 | `0x1F~Skyrim.esm` reads as 31: the `~` ends the hexadecimal run |
| Numbers.StrToLReadsOctal | include/Maps.h:7-9 | `017\|2` reads as 15, and `09` reads as 0 because a `9` ends an octal run |
| Numbers.StrToLStopsAtTerminator | include/Maps.h:7-9 | `strtol` reads nothing past a character that cannot occur in a numeral, such as `~`: whatever follows it, the value is that of the text before it |
| Numbers.ToUInt32ReadsHex | include/Maps.h:9 | `to_uint32` of `0x` and hexadecimal digits within the `long` range is their value |
| Forms.AsBoundObject | include/Utility.h:24 | `As<TESBoundObject>` keeps a form exactly when it is a bound object |
| Forms.AsContainer | include/Utility.h:36 | `As<TESContainer>` keeps a form exactly when it is a container |
| Maps.TokenEqualityIsFieldwise | include/Maps.h:24-33 | two tokens are equal exactly when all seven fields are equal |
| Maps.TypeLabel | include/Maps.h:81-98 | the label is "ERROR" exactly for the error kind |
| Maps.TypeLabelInjective | include/Maps.h:81-98 | the six kinds get six distinct labels |
| Maps.FormatToken | include/Maps.h:100-105 | the rendering starts with the `Type: ` field |
| Maps.FormatTokenConflatesAbsence | include/Maps.h:100-105 | an absent count or rhs count prints as -1 and an absent rhs as "null", so they cannot be told apart from those values |
| Parser.ClassifyString | src/Parser.cpp:3-21 | the five accepting shapes (minus anywhere, caret anywhere, bar count) form a table with one kind per shape; each kind holds exactly when its shape matches, and everything else is Error |
| Parser.ClassifyJoinedRule | src/Parser.cpp:3-21 | every rule of the configuration grammar, joined with an ordinary file name, classifies as its own kind |
| Parser.Tokenize | src/Parser.cpp:146-199 | the token carries `to` and the file name after the first `/`; per kind, the identifier, count, rhs and rhs count are the substrings and numbers the cited branches read, and Error has an empty identifier and nothing optional |
| Parser.TokenizeAddRule | src/Parser.cpp:161-166 | `Item\|n/file` tokenizes to an Add of `Item` with count `n` and no replacement |
| Parser.TokenizeRemoveRule | src/Parser.cpp:167-172 | `-Item\|n/file` tokenizes to a Remove of `Item` (from index 1 to the bar) with count `n` |
| Parser.TokenizeRemoveAllRule | src/Parser.cpp:173-176 | `-Item/file` tokenizes to a RemoveAll whose identifier is `Item/file`, including the file-name suffix, with no count |
| Parser.TokenizeReplaceRule | src/Parser.cpp:177-188 | `Old\|n^New\|m/file` tokenizes to a Replace of `Old`, count `n`, rhs `New`, rhs count `m` |
| Parser.TokenizeReplaceAllRule | src/Parser.cpp:189-192 | `Old^New\|m/file` tokenizes to a ReplaceAll of `Old` with no count, rhs `New`, rhs count `m` |
| Parser.TokenizeRenderedRule | src/Parser.cpp:146-199 | every well-formed rule round-trips: rendering, joining and tokenizing gives the token the rule stands for |
| Parser.HyphenatedFileNameTurnsAddIntoRemove | src/Parser.cpp:5-12 | a `-` anywhere counts, including in the file name: an add rule from such a file becomes a Remove that has lost the item's first character |
| Parser.Submit | src/Parser.cpp:93-103 | a new key gets a one-token vector and an existing key's vector grows by the token at its end; other keys are untouched |
| Parser.RouteKeepsVectorsNonEmpty | src/Parser.cpp:93-98 | no key is ever mapped to an empty vector |
| Parser.RouteAppends | src/Parser.cpp:64-103 | routing appends to each key of each map exactly the tokens of that key's values whose kind belongs to that map (Remove and RemoveAll to remove, Replace and ReplaceAll to replace, Add and Error to add), in reading order |
| Parser.ParseEntriesSpec | src/Parser.cpp:64-103 | after reading, each vector is the previous vector followed by the routed tokens, and a key is present exactly when it was before or one of its values was routed there |
| Parser.RoutedTokensBelong | src/Parser.cpp:66-103 | every token in a vector targets that vector's key, belongs to the map's family, is well formed, and was made from one configured value joined with its file name |
| Utility.IsEditorId | include/Utility.h:5 | an identifier is an editor id exactly when it holds no `~` |
| Utility.GetFormIdAndPluginName | include/Utility.h:7-10 | the identifier splits at its first `~`: the form id is `to_uint32` of the text before it alone, and the plugin name is the text after it; without a `~` the plugin name is the whole identifier |
| Utility.FormIdAndPluginNameRoundTrip | include/Utility.h:7-10 | `<decimal id>~<plugin>` splits back into that id and that plugin |
| Utility.FormIdAndPluginNameOfHex | include/Utility.h:7-10 | `0x<hex digits>~<plugin>` splits into the hexadecimal value and the plugin name |
| Utility.GetBoundObject | include/Utility.h:12-29 | the lookup mode follows the `~`; the result is the form found, exactly when there is one and it is a bound object, and null otherwise |
| Utility.GetContainer | include/Utility.h:31-51 | the result is truthy exactly when the identifier names a container, and it then carries that form's id and name; otherwise it is `{null, 0, ""}` |
| Utility.ResolvesEditorId | include/Utility.h:13-17 | a registered editor id is found by itself |
| Utility.ResolvesFormIdAndPlugin | include/Utility.h:18-26 | a form registered under (id, plugin) is found by `<id>~<plugin>` |
| Utility.BuildDistrObject | include/Utility.h:56-72 | the entry is consistent. It has an object exactly when item and container both resolve, and then copies kind, count and container. It has a replacement, with its rhs count, exactly when the kind is Replace or ReplaceAll and the rhs resolves |
| Utility.UnresolvedBuildsError | include/Utility.h:56-72 | an item that is not found as a bound object, or a container that is not found as a container, yields type Error with a null object and every optional absent |
| Utility.UnresolvedReplacementIsDropped | include/Utility.h:62-67 | a replacement whose rhs does not resolve keeps its kind, item, count and container and carries no replacement |
| Conflicts.Peers | src/Conflicts.cpp:29-30 | the matching tokens are exactly the tokens naming the same item that differ from the current one |
| Conflicts.WithoutId | src/Conflicts.cpp:40-41 | the removal as intended: it keeps exactly the tokens naming another item, and no more of them than the vector held; the removal as written differs (see Findings) |
| Conflicts.WithoutIdAsWritten | src/Conflicts.cpp:24-41 | the removal as written, with the predicate reading the item through a reference to the current position that `remove_if` overwrites; it only ever keeps tokens of the vector |
| Conflicts.AliasedRemovalKeepsConflictingToken | src/Conflicts.cpp:24-41 | after a conflict on `X`, the removal as written keeps a later, different `X` token in `[X1, X2, Y, X3]`, while the intended removal leaves only `Y` |
| Conflicts.Winners | src/Conflicts.cpp:23-47 | the tokens that get built are at most as many as the vector holds, and each comes from the vector |
| Conflicts.WinnersPerItem | src/Conflicts.cpp:29-46 | an item all of whose tokens are the same token keeps every copy, and a contested item yields exactly one winner |
| Conflicts.ContestedItem | src/Conflicts.cpp:31-41 | a token with peers means the tokens naming its item are not all the same token |
| Conflicts.ResolvedSameItem | src/Conflicts.cpp:31-41 | when the current token has peers, exactly one token naming its item is built |
| Conflicts.WinnersConflictFree | src/Conflicts.cpp:29-46 | no two different built tokens name the same item |
| Conflicts.ConflictFreeIsKept | src/Conflicts.cpp:43-45 | a vector without conflicts is built token for token |
| Conflicts.AnyCandidateCanWin | src/Conflicts.cpp:33-36 | the sort key is the shared identifier, so any candidate can end up last and win |
| Conflicts.ResolveVectorBuiltFromVector | src/Conflicts.cpp:24-46 | one vector yields no more entries than it has tokens, and each entry is built from one of its tokens |
| Conflicts.ResolveVectorOfConflictFree | src/Conflicts.cpp:24-46 | a vector without conflicts yields one entry per token, each built from that token, in order |
| Conflicts.ResolveKeys | src/Conflicts.cpp:23-48 | every entry is consistent and built from a token of the map, Error entries included |
| Conflicts.KeyContributesRun | src/Conflicts.cpp:23-24 | each container's vector contributes one contiguous run from its own tokens only, so tokens of different containers never conflict |
| Conflicts.PrepareDistributionImpl | src/Conflicts.cpp:21-49 | the prepared list only grows, and each new entry is consistent and built from a token of the map |
| Conflicts.PrepareDistribution | src/Conflicts.cpp:5-12 | the three maps only append to the prepared list |
| Conflicts.PrepareDistributionParts | src/Conflicts.cpp:10-12 | the new entries are the add map's, then the remove map's, then the replace map's |
| Conflicts.BuiltKeepsFamily | include/Utility.h:56-72 | a built entry is Error or keeps a kind of its token's family |
| Conflicts.ResolvedFamily | src/Conflicts.cpp:21-49 | every entry from a map is Error or has a kind of that map's family |
| Conflicts.PreparedInFamilyOrder | src/Conflicts.cpp:10-12 | among the new non-error entries, adds come before removals and removals before replacements |
| Distributor.Erase | src/Distributor.cpp:57 | `std::erase` removes every copy of the string and keeps the rest |
| Distributor.Colliders | src/Distributor.cpp:48-61 | the provider loop visits exactly the other strings with the same text before `\|`, each once |
| Distributor.ProvidersOf | src/Distributor.cpp:48-61 | a provider list starts with the current string's (file name, token) and has at least two entries |
| Distributor.ProvidersOfCollision | src/Distributor.cpp:48-61 | a provider list exists exactly when another string of the container collides with the value |
| Distributor.Visits | src/Distributor.cpp:18-21 | each rule is visited with its own container's list only |
| Distributor.RecordSpec | src/Distributor.cpp:62-65 | `emplace` keeps the first list recorded per key: a key holds its earlier value or the providers of the first value recorded under it |
| Distributor.BuiltEntriesCollide | src/Distributor.cpp:48-65 | a key is recorded only for a rule that collides with a different string of the same container, and holds that rule's providers |
| Distributor.Front | src/Distributor.cpp:131-133 | the winner is a provider with the alphabetically smallest file name |
| Distributor.LookupItem | src/Distributor.cpp:141-169 | lookup by editor id without a `~`, otherwise by the id before it and the plugin after it; only bound objects are kept |
| Distributor.LookupItemIsGetBoundObject | src/Distributor.cpp:141-169 | the legacy item lookup resolves every identifier exactly as the current pipeline's `get_bound_object` does |
| Distributor.AddRemoveStep | src/Distributor.cpp:117-169 | a rule whose item is already resolved changes nothing; otherwise at most one placement is appended and the conflict map only shrinks |
| Distributor.StepOnConflict | src/Distributor.cpp:127-139 | on a conflict the smallest-file-name provider's item and count are placed, the key is erased, and its item becomes resolved |
| Distributor.StepWithoutConflict | src/Distributor.cpp:141-169 | without a conflict the rule's own item and count are placed when the item resolves, and dropped silently otherwise |
| Distributor.ProcessRules | src/Distributor.cpp:112-170 | a container's pass adds at most one placement per rule, every placement it adds is a bound object, and the conflict map only shrinks |
| Distributor.ProcessRulesExtends | src/Distributor.cpp:112-170 | the pass only appends to the placements and only adds to the resolved items |
| Distributor.ResolvedRuleIsInert | src/Distributor.cpp:124-125 | a later rule whose item is already resolved can be deleted without changing the result |
| Distributor.WithoutConflictsEveryRuleIsPlaced | src/Distributor.cpp:115-170 | a container with no conflicts gets every resolvable rule placed as written, in order |
| Distributor.Emplace | src/Distributor.cpp:171-174 | the first insertion under a container is never overwritten |
| Distributor.PrepareAddRemoveDistribution | src/Distributor.cpp:105-176 | each container key gets one list, possibly empty; earlier entries are kept and the conflict map only shrinks |
| Distributor.PreparedListsAreBounded | src/Distributor.cpp:105-176 | a newly emplaced container list holds at most one placement per rule of that container |
| Distributor.PreparedObjectsAreBound | src/Distributor.cpp:141-169 | every prepared placement is a bound object |
| Distributor.RhsPlugin | src/Distributor.cpp:266 | the rhs plugin name is taken from the LEFT item: all of it when the right item has no `~`, otherwise the suffix that starts one past the length of the right form id; the slice throws exactly when the right form id is at least as long as the whole left item |
| Distributor.RhsPluginIgnoresRhsPlugin | src/Distributor.cpp:266 | the plugin the right item names never matters: only the length of its form id does |
| Distributor.LookupSwap | src/Distributor.cpp:234-285 | the left item's `~` picks the mode for both sides; without it both are looked up by editor id; with it the left side is its form id in its own plugin and the right side is its form id in the plugin sliced from the left item; a swap needs both sides to be bound objects and keeps both counts; the process terminates exactly when the rhs plugin slice is out of range |
| Distributor.RhsIsLookedUpInLhsPlugin | src/Distributor.cpp:263-271 | with the `~` at the same position on both sides, the swap lookup finds the rhs form id in the lhs plugin, whatever plugin the rhs names |
| Distributor.ShortLhsAborts | src/Distributor.cpp:266 | a swap whose right form id is longer than the whole left item (`1~A ^ 0x800~Skyrim.esm`, say) terminates the process |
| Distributor.SwapStep | src/Distributor.cpp:187-285 | a swap whose item pair is already resolved changes nothing; otherwise at most one swap is appended, resolved pairs only grow and the conflict map only shrinks; which swap is given by the two step lemmas below |
| Distributor.SwapStepWithoutConflict | src/Distributor.cpp:189-285 | without a conflict a swap rule looks up its own lhs item and count and its own rhs item and count, and appends that swap when both are found |
| Distributor.SwapStepOnConflict | src/Distributor.cpp:212-232 | on a swap conflict only the rhs comes from the smallest-file-name provider; the lhs item and count stay the rule's own, and the rule's own item pair becomes resolved |
| Distributor.ProcessSwapRules | src/Distributor.cpp:184-287 | unless it terminates, a container's swap pass adds at most one swap per rule and the conflict map only shrinks; without conflicts its content is given by `WithoutConflictsEverySwapIsPlaced` |
| Distributor.ProcessSwapRulesExtends | src/Distributor.cpp:184-287 | a swap pass that does not terminate only appends swaps and only adds to the resolved item pairs |
| Distributor.WithoutConflictsEverySwapIsPlaced | src/Distributor.cpp:184-287 | a container with no swap conflicts gets every rule's own swap, in order, when both sides are found; the pass terminates exactly when some rule's lookup does |
| Distributor.ResolvedSwapRuleIsInert | src/Distributor.cpp:209-210 | a later swap with an already resolved item pair, whatever its counts, can be deleted without changing the result |
| Distributor.PrepareSwapDistribution | src/Distributor.cpp:178-289 | unless it terminates, each container key gets one list, possibly empty; earlier entries are kept and the conflict map only shrinks; without conflicts the lists' content is given by `PreparedSwapsWithoutConflicts` |
| Distributor.PreparedSwapsWithoutConflicts | src/Distributor.cpp:178-289 | with no swap conflicts recorded, the preparation completes exactly when no container's rules terminate, and each new container list is that container's rules' swaps as written |
| Distributor.PreparedSwapListsAreBounded | src/Distributor.cpp:178-289 | unless the preparation terminates, a newly emplaced container list holds at most one swap per rule of that container |
| Distributor.ContainerFor | src/Distributor.cpp:306-313 | a key is served exactly when the editor-id table has a form for it and that form is a container |
| Distributor.AddRemoveDistribute | src/Distributor.cpp:299-354 | the add map makes only add calls and the remove map only remove calls |
| Distributor.KeyEventsSpec | src/Distributor.cpp:306-322 | one key's calls are exactly its placements on its container, and none when the key does not name a container |
| Distributor.AddRemoveDistributeSound | src/Distributor.cpp:299-354 | every call made is a placement of a key whose form is a container |
| Distributor.AddRemoveDistributeComplete | src/Distributor.cpp:299-354 | every placement of a key whose form is a container is called |
| Distributor.AddRemoveDistributeSpec | src/Distributor.cpp:299-354 | every call made is a placement of a key whose form is a container, and every such placement is called |
| Distributor.SwapEvents | src/Distributor.cpp:372-386 | each swap, in order, removes its lhs and then adds its rhs on the same container |
| Distributor.SwapEventsSpec | src/Distributor.cpp:372-386 | a container's swap calls are exactly the removal of each swap's left side and the addition of its right side |
| Distributor.SwapKeyEventsSpec | src/Distributor.cpp:363-388 | one key's swap calls are exactly its swaps' calls on its container, and none when the key does not name a container |
| Distributor.SwapDistributeSound | src/Distributor.cpp:356-391 | every swap call made is a call of a swap of a key whose form is a container |
| Distributor.SwapDistributeComplete | src/Distributor.cpp:356-391 | both calls of every swap of a key whose form is a container are made |
| Distributor.SwapDistributeSpec | src/Distributor.cpp:356-391 | swap calls are made exactly when requested by the swap map, so keys that are not containers are skipped |
| Distributor.SwapDistributePaired | src/Distributor.cpp:356-391 | the swap calls come in pairs: a removal immediately followed by an addition on the same container |
| Distributor.RanksInOrder | src/Distributor.cpp:291-297 | add-phase calls, then remove-phase calls, then swap calls never put a later phase before an earlier one |
| Distributor.PhasesInOrder | src/Distributor.cpp:291-297 | every add-map call comes before every remove-map call, and every remove-map call before every swap call |

## Left out

- Host-engine integration is not part of this model:
  - src/Hooks.cpp and include/Hooks.h, which patch the engine's vtable.
  - src/Main.cpp, the plugin bootstrap.
  - src/Settings.cpp, which loads the INI files.
  - include/Map.h, which calls an external DLL.
  - src/Events.cpp and include/Events.h.
- Declaration-only headers are not modelled. Their signatures shape the model's functions.
- Reading files is not modelled: the file enumeration, the regular expressions and the `CSimpleIniA` calls of `ParseINIs`. The model starts from a list of (file, key, value) entries.
- Logging is not modelled. This covers the debug dumps, `format_as(DistrObject)`, `LogConflictMap` and the log lines of every function.
- Real game-object lookups are replaced by `Forms.Directory`: two partial maps and two capability flags. The name and form id of a form are data, and `As<>` is the capability flag.
- Container inventory mutation is not modelled. The legacy distribution is a trace of add and remove calls, with no inventory semantics.
- Read/write locks, concurrency and `Utility::CachePlayerLevel` are left out.
- Chance, location scoping and runtime re-application: no code in this repository implements them.
- Hash-map iteration order is a parameter listing each key once, and the unstable sorts are settled by a chooser parameter. Any order and any chooser are allowed, so every proved property holds for all of them.
- Conflicts.PrepareDistributionImpl:
  - The source erases from the vector it is iterating, which is undefined behaviour. The model gives it worklist semantics: tokens are processed in order, and after a conflict every remaining token naming that item is dropped.
  - It copies each vector and never modifies the maps. A functional model gets this for free, so no lemma states it.
- Conflicts.PrepareDistributionImpl: the source destructures eight fields, including a `chance` that the declared `DistrToken` does not have. The model uses the seven declared fields.
- Conflicts.WithoutId: the `remove_if` predicate compares with `identifier`, which is bound by reference into the token at the current position. `remove_if` overwrites that position with the first later token it keeps, and from then on the predicate removes that token's item instead. The model's conflict resolution uses the intended removal, which drops exactly the tokens naming the conflicting item. The removal as written is `Conflicts.WithoutIdAsWritten`; see Findings.
- Distributor.Erase: `std::erase(vec_copy, *it)` passes a reference into the vector being erased. The model reads it as removing every copy of that string.
- Distributor.LookupSwap: a `substr` that throws inside a `noexcept` function ends the process. This is modelled as an `Aborted` outcome, with no further effect.
- Distributor: the legacy `PrepareDistribution` and `CheckConflicts` only call the modelled functions in a fixed order and log. They are not composed into one function.

## Findings

| source | as written | input that shows it | evidently intended | confidence | as-written member | corrected member |
|---|---|---|---|---|---|---|
| src/Conflicts.cpp:24-41 | the `remove_if` predicate compares with `identifier`, a reference into the current token's slot, which `remove_if` overwrites with the first later token it keeps | the vector `[X1, X2, Y, X3]` of one container, the `X` tokens pairwise different: resolving the conflict at `X1` leaves `[Y, X3]`, so `X3` is later built as a second entry for `X` | every token naming the conflicting item is removed, leaving `[Y]` | not executed; medium, the copy semantics of the moved tokens are read from the standard | Conflicts.AliasedRemovalKeepsConflictingToken | Conflicts.WithoutId |

=== FILE: base.dfy ===
/** Value types shared by both pipelines: optional values, the result of
    `std::string::find`, the substring operations the plugin builds on it,
    the ordering `std::string` uses, and decimal rendering of integers. */
module Base {

  /** `std::optional<T>`, and a nullable pointer (`None` is null). */
  datatype Option<T> = None | Some(value: T) {

    /** `value_or(default)` */
    function GetOr(default: T): T {
      match this
      case Some(v) => v
      case None => default
    }
  }

  /** The plugin's integer widths: a C++ `long` is 32 bits wide on the
      target platform, so `strtol` results are `int32` values too. */
  type int32 = x: int | -0x8000_0000 <= x < 0x8000_0000
  type uint32 = x: int | 0 <= x < 0x1_0000_0000

  /** A `std::size_t` returned by `find`: a position, or the sentinel `npos`. */
  datatype Index = At(pos: nat) | Npos

  /** `is_present`: the index is a real position, not the `npos` sentinel. */
  predicate IsPresent(i: Index) {
    i != Npos
  }

  /** `s.find(c)`: the first position holding `c`. */
  function Find(s: string, c: char): (r: Index)
    ensures IsPresent(r) <==> c in s
    ensures r.At? ==> r.pos < |s| && s[r.pos] == c && c !in s[..r.pos]
  {
    if |s| == 0 then Npos
    else if s[0] == c then At(0)
    else
      match Find(s[1..], c)
      case Npos => Npos
      case At(p) =>
        assert s[..p + 1] == [s[0]] + s[1..][..p];
        At(p + 1)
  }

  /** `i + 1` in `std::size_t` arithmetic: `npos + 1` wraps round to 0. */
  function Next(i: Index): nat {
    match i
    case At(p) => p + 1
    case Npos => 0
  }

  /** `s.substr(0, i)`: a count past the end (in particular `npos`) takes the whole string. */
  function Take(s: string, i: Index): (r: string)
    ensures |r| <= |s| && r == s[..|r|]
  {
    if i.At? && i.pos <= |s| then s[..i.pos] else s
  }

  /** Concatenation regroups; stated once so that callers need not prove
      sequence equality element by element. */
  lemma ConcatAssoc<T>(a: seq<T>, b: seq<T>, c: seq<T>)
    ensures a + b + c == a + (b + c)
  {
  }

  /** A non-empty sequence is its front followed by its last element. */
  lemma DropLast<T>(xs: seq<T>)
    requires |xs| > 0
    ensures xs == xs[..|xs| - 1] + [xs[|xs| - 1]]
  {
  }

  /** `a` begins `b`. */
  predicate IsPrefix<T(==)>(a: seq<T>, b: seq<T>) {
    |a| <= |b| && b[..|a|] == a
  }

  lemma PrefixTransitive<T>(a: seq<T>, b: seq<T>, c: seq<T>)
    requires IsPrefix(a, b) && IsPrefix(b, c)
    ensures IsPrefix(a, c)
  {
    assert c[..|a|] == c[..|b|][..|a|];
  }

  /** `std::ranges::count(s, c)` */
  function CountOf(s: string, c: char): (r: nat)
    ensures r <= |s|
    ensures r == 0 <==> c !in s
  {
    if |s| == 0 then 0
    else (if s[0] == c then 1 else 0) + CountOf(s[1..], c)
  }

  lemma {:induction false} CountOfAppend(a: string, b: string, c: char)
    ensures CountOf(a + b, c) == CountOf(a, c) + CountOf(b, c)
  {
    if |a| > 0 {
      assert (a + b)[1..] == a[1..] + b;
      CountOfAppend(a[1..], b, c);
    } else {
      assert a + b == b;
    }
  }

  /** The text before the first `c`: `s.substr(0, s.find(c))`. */
  function Before(s: string, c: char): (r: string)
    ensures c !in r
    ensures c in s ==> |r| < |s| && s[..|r|] == r && s[|r|] == c
    ensures c !in s ==> r == s
  {
    Take(s, Find(s, c))
  }

  /** The text after the first `c`: `s.substr(s.find(c) + 1)`, the whole
      string when `c` does not occur. */
  function After(s: string, c: char): (r: string)
    ensures c in s ==> s == Before(s, c) + [c] + r
    ensures c !in s ==> r == s
  {
    var r := s[Next(Find(s, c))..];
    assert c in s ==> s == s[..|Before(s, c)|] + [c] + r;
    r
  }

  lemma {:induction false} FindAppend(a: string, b: string, c: char)
    requires c !in a
    ensures Find(a + b, c) == match Find(b, c) case Npos => Npos case At(p) => At(|a| + p)
  {
    if c in b {
      var p := Find(b, c).pos;
      assert (a + b)[|a| + p] == c;
      assert (a + b)[..|a| + p] == a + b[..p];
    } else {
      assert forall i | 0 <= i < |a + b| :: (a + b)[i] != c by {
        forall i | 0 <= i < |a + b| ensures (a + b)[i] != c {
          if i < |a| { assert (a + b)[i] == a[i]; } else { assert (a + b)[i] == b[i - |a|]; }
        }
      }
    }
  }

  /** The text before the first `c` of `a + [c] + b` is `a`, and the text after it is `b`. */
  lemma SplitAt(a: string, c: char, b: string)
    requires c !in a
    ensures Before(a + [c] + b, c) == a
    ensures After(a + [c] + b, c) == b
  {
    var s := a + [c] + b;
    assert s == a + ([c] + b);
    FindAppend(a, [c] + b, c);
    assert Find(s, c) == At(|a|);
    assert s[..|a|] == a;
    assert s[|a| + 1..] == b;
  }

  /** `a < b` for `std::string`: lexicographic by character code, a proper
      prefix ordering first. `LexLeq` is its reflexive closure. */
  predicate LexLeq(a: string, b: string)
  {
    |a| == 0 || (|b| > 0 && (a[0] < b[0] || (a[0] == b[0] && LexLeq(a[1..], b[1..]))))
  }

  lemma {:induction false} LexLeqTotal(a: string, b: string)
    ensures LexLeq(a, b) || LexLeq(b, a)
  {
    if |a| > 0 && |b| > 0 && a[0] == b[0] {
      LexLeqTotal(a[1..], b[1..]);
    }
  }

  lemma {:induction false} LexLeqTransitive(a: string, b: string, c: string)
    requires LexLeq(a, b) && LexLeq(b, c)
    ensures LexLeq(a, c)
  {
    if |a| > 0 && a[0] == b[0] && b[0] == c[0] {
      LexLeqTransitive(a[1..], b[1..], c[1..]);
    }
  }

  /** `order` lists every key of `m` exactly once: the iteration order of
      a hash map, which the program does not fix. */
  predicate IsIterationOrder<V>(order: seq<string>, m: map<string, V>) {
    && (forall k | k in order :: k in m)
    && (forall k | k in m :: k in order)
    && (forall i, j | 0 <= i < j < |order| :: order[i] != order[j])
  }

  predicate IsDecimalDigit(c: char) {
    '0' <= c <= '9'
  }

  function DigitChar(d: nat): (c: char)
    requires d < 10
    ensures IsDecimalDigit(c)
  {
    (('0' as int) + d) as char
  }

  /** Decimal rendering of a natural number, without leading zeros. */
  function NatToString(n: nat): (r: string)
    ensures |r| >= 1
    ensures forall i | 0 <= i < |r| :: IsDecimalDigit(r[i])
    ensures n >= 1 ==> r[0] != '0'
  {
    if n < 10 then [DigitChar(n)] else NatToString(n / 10) + [DigitChar(n % 10)]
  }

  /** Decimal rendering of an integer, as `fmt` prints it: a `-` for negatives. */
  function IntToString(n: int): (r: string)
    ensures |r| >= 1
    ensures n < 0 <==> r[0] == '-'
  {
    if n < 0 then "-" + NatToString(-n) else NatToString(n)
  }
}

=== FILE: conflicts.dfy ===
/** Conflict resolution of the current pipeline. Each vector of a
    conflict-test map holds the tokens aimed at one container; tokens in it
    that name the same item but differ conflict, exactly one of them wins,
    and the winner is built into a resolved entry. The three maps are
    resolved in the order add, remove, replace. */
module Conflicts {
  import opened Base
  import opened Forms
  import opened Maps
  import opened Utility
  import opened Parser

  /** The tokens of `ts` that name item `x`, in order. */
  function WithId(ts: seq<DistrToken>, x: string): (r: seq<DistrToken>)
    ensures |r| <= |ts|
    ensures forall t | t in r :: t in ts && t.identifier == x
    ensures forall t | t in ts && t.identifier == x :: t in r
  {
    if |ts| == 0 then []
    else (if ts[0].identifier == x then [ts[0]] else []) + WithId(ts[1..], x)
  }

  /** The vector with every token naming `x` removed, in order: what the
      `remove_if` and `erase` after a conflict are meant to leave. The
      removal as written differs; see `WithoutIdAsWritten`. */
  function WithoutId(ts: seq<DistrToken>, x: string): (r: seq<DistrToken>)
    ensures |r| <= |ts|
    ensures forall t | t in r :: t in ts && t.identifier != x
    ensures forall t | t in ts && t.identifier != x :: t in r
  {
    if |ts| == 0 then []
    else (if ts[0].identifier != x then [ts[0]] else []) + WithoutId(ts[1..], x)
  }

  /** `remove_if` whose predicate reads the item through a reference to the
      vector's position `slot`. Kept tokens are moved down, one position
      each, in order; the token moved into `slot` replaces the item the
      predicate compares with. `kept` holds the tokens written so far. */
  function RemoveIfAliased(ts: seq<DistrToken>, x: string, slot: nat, kept: seq<DistrToken>): (r: seq<DistrToken>)
    ensures |r| <= |kept| + |ts|
    ensures forall t | t in r :: t in kept || t in ts
    decreases |ts|
  {
    if |ts| == 0 then kept
    else if ts[0].identifier == x then RemoveIfAliased(ts[1..], x, slot, kept)
    else
      var x' := if |kept| == slot then ts[0].identifier else x;
      RemoveIfAliased(ts[1..], x', slot, kept + [ts[0]])
  }

  /** The removal as the source writes it, for the token at position `p`:
      the predicate compares with `identifier`, bound by reference into the
      token at `p`, which `remove_if` overwrites with the first later token
      it keeps. */
  function WithoutIdAsWritten(ts: seq<DistrToken>, p: nat): (r: seq<DistrToken>)
    requires p < |ts|
    ensures |r| <= |ts|
    ensures forall t | t in r :: t in ts
  {
    RemoveIfAliased(ts, ts[p].identifier, p, [])
  }

  /** Four tokens aimed at one container: three different tokens for item
      `X` and one for item `Y`. */
  function AliasingExample(): seq<DistrToken> {
    [ DistrToken(Add, "a.ini", "Chest", "X", Some(1), None, None),
      DistrToken(Add, "b.ini", "Chest", "X", Some(2), None, None),
      DistrToken(Add, "a.ini", "Chest", "Y", Some(1), None, None),
      DistrToken(Add, "c.ini", "Chest", "X", Some(3), None, None) ]
  }

  /** After the conflict on `X` at position 0, the removal as written keeps
      the third `X` token: `Y` is moved into the aliased slot, and from
      then on the predicate removes `Y` tokens instead. The intended
      removal leaves only `Y`. */
  lemma AliasedRemovalKeepsConflictingToken()
    ensures var ts := AliasingExample();
      && WithoutIdAsWritten(ts, 0) == [ts[2], ts[3]]
      && ts[3].identifier == ts[0].identifier && ts[3] != ts[0]
      && WithoutId(ts, ts[0].identifier) == [ts[2]]
  {
    var ts := AliasingExample();
    assert ts[1..][1..] == ts[2..] && ts[2..][1..] == ts[3..] && ts[3..][1..] == [];
    assert RemoveIfAliased(ts[3..], "Y", 0, [ts[2]]) == [ts[2], ts[3]];
    assert [] + [ts[2]] == [ts[2]];
    assert RemoveIfAliased(ts[2..], "X", 0, []) == [ts[2], ts[3]];
    assert WithoutId(ts[3..], "X") == [];
    assert WithoutId(ts[2..], "X") == [ts[2]];
  }

  /** The `matching` filter: tokens naming the same item as `t` but
      differing from it in some field. */
  function Peers(ts: seq<DistrToken>, t: DistrToken): (r: seq<DistrToken>)
    ensures forall u | u in r :: u in ts && u.identifier == t.identifier && u != t
    ensures forall u | u in ts && u.identifier == t.identifier && u != t :: u in r
  {
    if |ts| == 0 then []
    else (if ts[0].identifier == t.identifier && ts[0] != t then [ts[0]] else []) + Peers(ts[1..], t)
  }

  /** The candidates are sorted by identifier, which they all share, so the
      unstable sort may leave any of them last. The chooser stands for that
      freedom: it names the position of the winner. */
  type Chooser = seq<DistrToken> -> nat

  function Pick(cands: seq<DistrToken>, choose: Chooser): (r: DistrToken)
    requires |cands| > 0
    ensures r in cands
  {
    cands[choose(cands) % |cands|]
  }

  /** The tokens of one vector that get built, in order. A token without
      peers is built as it stands; a token with peers is replaced by the
      winner among them and itself, and every token naming that item is
      then dropped from the rest of the vector. */
  function Winners(work: seq<DistrToken>, choose: Chooser): (r: seq<DistrToken>)
    ensures |r| <= |work|
    ensures forall w | w in r :: w in work
    decreases |work|
  {
    if |work| == 0 then []
    else
      var t := work[0];
      var rest := work[1..];
      var cands := Peers(rest, t);
      if |cands| == 0 then [t] + Winners(rest, choose)
      else [Pick(cands + [t], choose)] + Winners(WithoutId(rest, t.identifier), choose)
  }

  /** All the tokens are the same token. */
  predicate AllSame(ts: seq<DistrToken>) {
    forall i, j | 0 <= i < |ts| && 0 <= j < |ts| :: ts[i] == ts[j]
  }

  /** No two different tokens name the same item. */
  predicate ConflictFree(ts: seq<DistrToken>) {
    forall i, j | 0 <= i < |ts| && 0 <= j < |ts| && ts[i].identifier == ts[j].identifier :: ts[i] == ts[j]
  }

  lemma {:induction false} WithIdWithoutOther(ts: seq<DistrToken>, x: string, y: string)
    requires x != y
    ensures WithId(WithoutId(ts, y), x) == WithId(ts, x)
  {
    if |ts| > 0 {
      var rest := WithoutId(ts[1..], y);
      WithIdWithoutOther(ts[1..], x, y);
      if ts[0].identifier != y {
        var w := [ts[0]] + rest;
        assert WithoutId(ts, y) == w;
        assert w[0] == ts[0] && w[1..] == rest;
        assert WithId(w, x) == (if ts[0].identifier == x then [ts[0]] else []) + WithId(rest, x);
      } else {
        assert WithoutId(ts, y) == rest;
      }
    }
  }

  lemma {:induction false} WithIdOfAbsent(ts: seq<DistrToken>, x: string)
    requires forall t | t in ts :: t.identifier != x
    ensures WithId(ts, x) == []
  {
    if |ts| > 0 {
      WithIdOfAbsent(ts[1..], x);
    }
  }

  lemma WithIdCons(h: DistrToken, tail: seq<DistrToken>, x: string)
    ensures WithId([h] + tail, x) == (if h.identifier == x then [h] else []) + WithId(tail, x)
  {
    assert ([h] + tail)[0] == h && ([h] + tail)[1..] == tail;
  }

  /** A sequence all of whose elements equal `t` is all the same token. */
  lemma AllSameOf(ts: seq<DistrToken>, t: DistrToken)
    requires forall u | u in ts :: u == t
    ensures AllSame(ts)
  {
    assert forall i | 0 <= i < |ts| :: ts[i] in ts;
  }

  /** The first token has no peers and names another item: the rest of
      the vector decides. */
  lemma KeptOtherItem(work: seq<DistrToken>, choose: Chooser, x: string)
    requires |work| > 0 && |Peers(work[1..], work[0])| == 0 && work[0].identifier != x
    ensures WithId(Winners(work, choose), x) == WithId(Winners(work[1..], choose), x)
    ensures WithId(work, x) == WithId(work[1..], x)
  {
    var t := work[0];
    assert work == [t] + work[1..];
    assert Winners(work, choose) == [t] + Winners(work[1..], choose);
    WithIdCons(t, work[1..], x);
    WithIdCons(t, Winners(work[1..], choose), x);
  }

  /** The first token has no peers and names `x`: it is kept, and so are
      its copies further on. */
  lemma KeptSameItem(work: seq<DistrToken>, choose: Chooser, x: string)
    requires |work| > 0 && |Peers(work[1..], work[0])| == 0 && work[0].identifier == x
    requires WithId(Winners(work[1..], choose), x) == WithId(work[1..], x)
    ensures WithId(Winners(work, choose), x) == WithId(work, x)
  {
    var t := work[0];
    assert work == [t] + work[1..];
    assert Winners(work, choose) == [t] + Winners(work[1..], choose);
    WithIdCons(t, work[1..], x);
    WithIdCons(t, Winners(work[1..], choose), x);
  }

  /** When the first token has no peers, every token naming its item is
      that token. */
  lemma UncontestedItem(work: seq<DistrToken>, x: string)
    requires |work| > 0 && |Peers(work[1..], work[0])| == 0 && work[0].identifier == x
    ensures AllSame(WithId(work[1..], x)) && AllSame(WithId(work, x))
  {
    var t := work[0];
    var same := WithId(work[1..], x);
    assert forall u | u in same :: u == t;
    AllSameOf(same, t);
    assert work == [t] + work[1..];
    WithIdCons(t, work[1..], x);
    assert forall u | u in [t] + same :: u == t;
    AllSameOf([t] + same, t);
  }

  /** Two different tokens in one sequence: not all of it is the same token. */
  lemma DifferentNotAllSame(ts: seq<DistrToken>, t: DistrToken, u: DistrToken)
    requires t in ts && u in ts && t != u
    ensures !AllSame(ts)
  {
    var i :| 0 <= i < |ts| && ts[i] == t;
    var j :| 0 <= j < |ts| && ts[j] == u;
  }

  /** The first token has peers and names `x`: the tokens naming `x` differ. */
  lemma ContestedItem(work: seq<DistrToken>, x: string)
    requires |work| > 0 && |Peers(work[1..], work[0])| > 0 && work[0].identifier == x
    ensures !AllSame(WithId(work, x))
  {
    var t := work[0];
    var u := Peers(work[1..], t)[0];
    assert u in work[1..] && u.identifier == x && u != t;
    var i :| 0 <= i < |work[1..]| && work[1..][i] == u;
    assert work[i + 1] == u;
    DifferentNotAllSame(WithId(work, x), t, u);
  }

  /** The first token has peers and names `x`: the one winner is all that
      is left of `x`. */
  lemma ResolvedSameItem(work: seq<DistrToken>, choose: Chooser, x: string)
    requires |work| > 0 && |Peers(work[1..], work[0])| > 0 && work[0].identifier == x
    ensures |WithId(Winners(work, choose), x)| == 1
  {
    var t := work[0];
    var cands := Peers(work[1..], t);
    var rest' := WithoutId(work[1..], x);
    var p := Pick(cands + [t], choose);
    assert p.identifier == x by {
      assert p in cands || p == t;
    }
    assert Winners(work, choose) == [p] + Winners(rest', choose);
    WithIdCons(p, Winners(rest', choose), x);
    WithIdOfAbsent(Winners(rest', choose), x);
  }

  /** The first token has peers and names another item: the tokens naming
      `x` are untouched and the rest of the vector decides. */
  lemma {:induction false} ResolvedOtherItem(work: seq<DistrToken>, choose: Chooser, x: string)
    requires |work| > 0 && |Peers(work[1..], work[0])| > 0 && work[0].identifier != x
    ensures var rest' := WithoutId(work[1..], work[0].identifier);
      && WithId(Winners(work, choose), x) == WithId(Winners(rest', choose), x)
      && WithId(work, x) == WithId(rest', x)
  {
    var t := work[0];
    var rest := work[1..];
    var cands := Peers(rest, t);
    var rest' := WithoutId(rest, t.identifier);
    var p := Pick(cands + [t], choose);
    assert work == [t] + rest;
    assert Winners(work, choose) == [p] + Winners(rest', choose);
    WithIdCons(t, rest, x);
    WithIdCons(p, Winners(rest', choose), x);
    WithIdWithoutOther(rest, x, t.identifier);
  }

  /** Within one vector, an item named by tokens that are all the same
      token keeps every one of them, and an item named by tokens that
      differ ends up with exactly one winner, one of those tokens. */
  lemma {:induction false} WinnersPerItem(work: seq<DistrToken>, choose: Chooser, x: string)
    ensures AllSame(WithId(work, x)) ==> WithId(Winners(work, choose), x) == WithId(work, x)
    ensures !AllSame(WithId(work, x)) ==> |WithId(Winners(work, choose), x)| == 1
    decreases |work|
  {
    if |work| > 0 {
      if |Peers(work[1..], work[0])| == 0 {
        WinnersPerItem(work[1..], choose, x);
        if work[0].identifier == x {
          UncontestedItem(work, x);
          KeptSameItem(work, choose, x);
        } else {
          KeptOtherItem(work, choose, x);
        }
      } else {
        if work[0].identifier == x {
          ContestedItem(work, x);
          ResolvedSameItem(work, choose, x);
        } else {
          WinnersPerItem(WithoutId(work[1..], work[0].identifier), choose, x);
          ResolvedOtherItem(work, choose, x);
        }
      }
    }
  }

  lemma Collapse(wx: seq<DistrToken>, a: DistrToken, b: DistrToken)
    requires a in wx && b in wx
    requires AllSame(wx) || |wx| == 1
    ensures a == b
  {
    var i :| 0 <= i < |wx| && wx[i] == a;
    var j :| 0 <= j < |wx| && wx[j] == b;
  }

  lemma SameItemSameWinner(work: seq<DistrToken>, choose: Chooser, i: nat, j: nat)
    requires i < |Winners(work, choose)| && j < |Winners(work, choose)|
    requires Winners(work, choose)[i].identifier == Winners(work, choose)[j].identifier
    ensures Winners(work, choose)[i] == Winners(work, choose)[j]
  {
    var ws := Winners(work, choose);
    var x := ws[i].identifier;
    WinnersPerItem(work, choose, x);
    assert ws[i] in ws && ws[j] in ws;
    Collapse(WithId(ws, x), ws[i], ws[j]);
  }

  /** The tokens that get built never conflict with one another. */
  lemma WinnersConflictFree(work: seq<DistrToken>, choose: Chooser)
    ensures ConflictFree(Winners(work, choose))
  {
    var ws := Winners(work, choose);
    forall i, j | 0 <= i < |ws| && 0 <= j < |ws| && ws[i].identifier == ws[j].identifier
      ensures ws[i] == ws[j]
    {
      SameItemSameWinner(work, choose, i, j);
    }
  }

  lemma {:induction false} PeersOfSame(ts: seq<DistrToken>, t: DistrToken)
    requires forall u | u in ts && u.identifier == t.identifier :: u == t
    ensures Peers(ts, t) == []
  {
    if |ts| > 0 {
      assert ts[0] in ts;
      PeersOfSame(ts[1..], t);
    }
  }

  /** A vector without conflicts is built token for token. */
  lemma {:induction false} ConflictFreeIsKept(work: seq<DistrToken>, choose: Chooser)
    requires ConflictFree(work)
    ensures Winners(work, choose) == work
    decreases |work|
  {
    if |work| > 0 {
      var t := work[0];
      var rest := work[1..];
      assert forall i | 0 <= i < |rest| :: rest[i] == work[i + 1];
      assert forall u | u in rest && u.identifier == t.identifier :: u == t by {
        forall u | u in rest && u.identifier == t.identifier ensures u == t {
          var i :| 0 <= i < |rest| && rest[i] == u;
          assert work[i + 1] == u;
        }
      }
      PeersOfSame(rest, t);
      ConflictFreeIsKept(rest, choose);
    }
  }

  /** Which of the conflicting tokens wins is left open: for each
      candidate there is a sort outcome that makes it the winner. */
  lemma AnyCandidateCanWin(work: seq<DistrToken>, i: nat)
    requires |work| > 0 && |Peers(work[1..], work[0])| > 0
    requires i <= |Peers(work[1..], work[0])|
    ensures Winners(work, (c: seq<DistrToken>) => i)[0] == (Peers(work[1..], work[0]) + [work[0]])[i]
  {
    var choose: Chooser := (c: seq<DistrToken>) => i;
    var cands := Peers(work[1..], work[0]) + [work[0]];
    WinnersHead(work, choose);
    PickAt(cands, choose, i);
  }

  lemma WinnersHead(work: seq<DistrToken>, choose: Chooser)
    requires |work| > 0 && |Peers(work[1..], work[0])| > 0
    ensures Winners(work, choose)[0] == Pick(Peers(work[1..], work[0]) + [work[0]], choose)
  {
  }

  lemma PickAt(cands: seq<DistrToken>, choose: Chooser, i: nat)
    requires i < |cands| && choose(cands) == i
    ensures Pick(cands, choose) == cands[i]
  {
  }

  /** Every token of a map is shaped as the tokenizer shapes it. */
  predicate AllWellFormed(m: TestMap) {
    forall k, t | k in m && t in m[k] :: WellFormed(t)
  }

  /** `o` is the entry built from some token of `m`. */
  ghost predicate BuiltFrom(dir: Directory, o: DistrObject, m: TestMap) {
    exists k, t | k in m && t in m[k] && WellFormed(t) :: o == BuildDistrObject(dir, t)
  }

  /** The resolved entries of one vector: its winners, built in order. */
  function ResolveVector(dir: Directory, v: seq<DistrToken>, choose: Chooser): seq<DistrObject>
    requires forall t | t in v :: WellFormed(t)
  {
    var ws := Winners(v, choose);
    seq(|ws|, i requires 0 <= i < |ws| => BuildDistrObject(dir, ws[i]))
  }

  /** One vector never yields more entries than it has tokens, and each
      entry is built from one of its tokens. */
  lemma ResolveVectorBuiltFromVector(dir: Directory, v: seq<DistrToken>, choose: Chooser, i: nat)
    requires forall t | t in v :: WellFormed(t)
    requires i < |ResolveVector(dir, v, choose)|
    ensures |ResolveVector(dir, v, choose)| <= |v|
    ensures exists t | t in v :: ResolveVector(dir, v, choose)[i] == BuildDistrObject(dir, t)
  {
    var ws := Winners(v, choose);
    assert ws[i] in ws;
  }

  /** A vector without conflicts yields one entry per token, in order. */
  lemma ResolveVectorOfConflictFree(dir: Directory, v: seq<DistrToken>, choose: Chooser)
    requires forall t | t in v :: WellFormed(t)
    requires ConflictFree(v)
    ensures |ResolveVector(dir, v, choose)| == |v|
    ensures forall i | 0 <= i < |v| :: ResolveVector(dir, v, choose)[i] == BuildDistrObject(dir, v[i])
  {
    ConflictFreeIsKept(v, choose);
  }

  /** The vectors of the listed keys resolved one after the other. */
  function ResolveKeys(dir: Directory, m: TestMap, keys: seq<string>, choose: Chooser): (r: seq<DistrObject>)
    requires forall k | k in keys :: k in m
    requires AllWellFormed(m)
    ensures forall o | o in r :: Consistent(o)
    ensures forall o | o in r :: BuiltFrom(dir, o, m)
  {
    if |keys| == 0 then []
    else
      var v := ResolveVector(dir, m[keys[0]], choose);
      var more := ResolveKeys(dir, m, keys[1..], choose);
      assert forall o | o in v :: BuiltFrom(dir, o, m) by {
        forall o | o in v ensures BuiltFrom(dir, o, m) {
          var i :| 0 <= i < |v| && v[i] == o;
          assert Winners(m[keys[0]], choose)[i] in m[keys[0]];
        }
      }
      v + more
  }

  lemma {:induction false} ResolveKeysAppend(dir: Directory, m: TestMap, a: seq<string>, b: seq<string>, choose: Chooser)
    requires forall k | k in a + b :: k in m
    requires AllWellFormed(m)
    ensures ResolveKeys(dir, m, a + b, choose) == ResolveKeys(dir, m, a, choose) + ResolveKeys(dir, m, b, choose)
  {
    if |a| == 0 {
      assert a + b == b;
    } else {
      assert (a + b)[0] == a[0];
      assert (a + b)[1..] == a[1..] + b;
      ResolveKeysAppend(dir, m, a[1..], b, choose);
      var v := ResolveVector(dir, m[a[0]], choose);
      ConcatAssoc(v, ResolveKeys(dir, m, a[1..], choose), ResolveKeys(dir, m, b, choose));
    }
  }

  /** Each key's vector contributes one contiguous run of entries, placed
      where the key comes in the iteration order. */
  lemma KeyContributesRun(dir: Directory, m: TestMap, keys: seq<string>, choose: Chooser, i: nat)
    requires forall k | k in keys :: k in m
    requires AllWellFormed(m)
    requires i < |keys|
    ensures ResolveKeys(dir, m, keys, choose)
      == ResolveKeys(dir, m, keys[..i], choose) + ResolveVector(dir, m[keys[i]], choose) + ResolveKeys(dir, m, keys[i + 1..], choose)
  {
    assert keys == keys[..i] + keys[i..];
    ResolveKeysAppend(dir, m, keys[..i], keys[i..], choose);
    assert keys[i..][1..] == keys[i + 1..];
  }

  /** `Conflicts::PrepareDistributionImpl`: the entries of every vector of
      one map, appended to those already prepared. */
  function PrepareDistributionImpl(dir: Directory, prepared: seq<DistrObject>, m: TestMap, order: seq<string>, choose: Chooser): (r: seq<DistrObject>)
    requires IsIterationOrder(order, m)
    requires AllWellFormed(m)
    ensures |r| >= |prepared| && r[..|prepared|] == prepared
    ensures forall i | |prepared| <= i < |r| :: Consistent(r[i])
    ensures forall i | |prepared| <= i < |r| :: BuiltFrom(dir, r[i], m)
  {
    var added := ResolveKeys(dir, m, order, choose);
    var r := prepared + added;
    assert forall i | |prepared| <= i < |r| :: r[i] == added[i - |prepared|] && added[i - |prepared|] in added;
    r
  }

  /** Each map with the order its keys are visited in. */
  datatype Orders = Orders(add: seq<string>, remove: seq<string>, replace: seq<string>) {
    function Get(f: Family): seq<string> {
      match f
      case AddFamily => add
      case RemoveFamily => remove
      case ReplaceFamily => replace
    }
  }

  /** The maps as routing leaves them: every token well formed and filed in
      the map of its kind's family, and each order a visit of its map. */
  predicate ReadyMap(m: TestMap, order: seq<string>, f: Family) {
    && IsIterationOrder(order, m)
    && AllWellFormed(m)
    && (forall k, t | k in m && t in m[k] :: FamilyOf(t.distrType) == f)
  }

  predicate ReadyMaps(maps: TestMaps, orders: Orders) {
    && ReadyMap(maps.add, orders.add, AddFamily)
    && ReadyMap(maps.remove, orders.remove, RemoveFamily)
    && ReadyMap(maps.replace, orders.replace, ReplaceFamily)
  }

  /** `Conflicts::PrepareDistribution`: the add map, then the remove map,
      then the replace map. */
  function PrepareDistribution(dir: Directory, prepared: seq<DistrObject>, maps: TestMaps, orders: Orders, choose: Chooser): (r: seq<DistrObject>)
    requires ReadyMaps(maps, orders)
    ensures |r| >= |prepared| && r[..|prepared|] == prepared
  {
    var afterAdd := PrepareDistributionImpl(dir, prepared, maps.add, orders.add, choose);
    var afterRemove := PrepareDistributionImpl(dir, afterAdd, maps.remove, orders.remove, choose);
    PrepareDistributionImpl(dir, afterRemove, maps.replace, orders.replace, choose)
  }

  function Rank(f: Family): nat {
    match f
    case AddFamily => 0
    case RemoveFamily => 1
    case ReplaceFamily => 2
  }

  /** An entry built from a token of family `f` is the error entry or has
      a kind of that family. */
  lemma BuiltKeepsFamily(dir: Directory, t: DistrToken, f: Family)
    requires WellFormed(t) && FamilyOf(t.distrType) == f
    ensures var o := BuildDistrObject(dir, t); o.distrType == Error || FamilyOf(o.distrType) == f
  {
  }

  /** The entries the three maps contribute, each from its own map. */
  lemma {:induction false} PrepareDistributionParts(dir: Directory, prepared: seq<DistrObject>, maps: TestMaps, orders: Orders, choose: Chooser)
    requires ReadyMaps(maps, orders)
    ensures var r := PrepareDistribution(dir, prepared, maps, orders, choose);
      r == prepared
        + ResolveKeys(dir, maps.add, orders.add, choose)
        + ResolveKeys(dir, maps.remove, orders.remove, choose)
        + ResolveKeys(dir, maps.replace, orders.replace, choose)
  {
  }

  /** Every entry of `os` is the error entry or has a kind of family `f`. */
  predicate OfFamily(os: seq<DistrObject>, f: Family) {
    forall o | o in os :: o.distrType == Error || FamilyOf(o.distrType) == f
  }

  /** Every entry resolved from the map of family `f` is the error entry or
      has a kind of that family. */
  lemma ResolvedFamily(dir: Directory, m: TestMap, order: seq<string>, choose: Chooser, f: Family)
    requires ReadyMap(m, order, f)
    ensures OfFamily(ResolveKeys(dir, m, order, choose), f)
  {
    forall o | o in ResolveKeys(dir, m, order, choose) ensures o.distrType == Error || FamilyOf(o.distrType) == f {
      var k, t :| k in m && t in m[k] && WellFormed(t) && o == BuildDistrObject(dir, t);
      BuiltKeepsFamily(dir, t, f);
    }
  }

  /** Three runs, each of one family, laid end to end after a prefix. */
  lemma {:induction false} RunsInFamilyOrder(p: seq<DistrObject>, a: seq<DistrObject>, b: seq<DistrObject>, c: seq<DistrObject>, i: nat, j: nat)
    requires OfFamily(a, AddFamily) && OfFamily(b, RemoveFamily) && OfFamily(c, ReplaceFamily)
    requires |p| <= i < j < |p + a + b + c|
    requires (p + a + b + c)[i].distrType != Error && (p + a + b + c)[j].distrType != Error
    ensures Rank(FamilyOf((p + a + b + c)[i].distrType)) <= Rank(FamilyOf((p + a + b + c)[j].distrType))
  {
    var r := p + a + b + c;
    assert forall k | |p| <= k < |p| + |a| :: r[k] == a[k - |p|] && a[k - |p|] in a;
    assert forall k | |p| + |a| <= k < |p| + |a| + |b| :: r[k] == b[k - |p| - |a|] && b[k - |p| - |a|] in b;
    assert forall k | |p| + |a| + |b| <= k < |r| :: r[k] == c[k - |p| - |a| - |b|] && c[k - |p| - |a| - |b|] in c;
  }

  /** Entries are prepared family by family: among the new entries that are
      not errors, every add comes before every remove, and every remove
      before every replace. */
  lemma PreparedInFamilyOrder(dir: Directory, prepared: seq<DistrObject>, maps: TestMaps, orders: Orders, choose: Chooser, i: nat, j: nat)
    requires ReadyMaps(maps, orders)
    requires var r := PrepareDistribution(dir, prepared, maps, orders, choose);
      |prepared| <= i < j < |r| && r[i].distrType != Error && r[j].distrType != Error
    ensures var r := PrepareDistribution(dir, prepared, maps, orders, choose);
      Rank(FamilyOf(r[i].distrType)) <= Rank(FamilyOf(r[j].distrType))
  {
    PrepareDistributionParts(dir, prepared, maps, orders, choose);
    ResolvedFamily(dir, maps.add, orders.add, choose, AddFamily);
    ResolvedFamily(dir, maps.remove, orders.remove, choose, RemoveFamily);
    ResolvedFamily(dir, maps.replace, orders.replace, choose, ReplaceFamily);
    RunsInFamilyOrder(prepared,
      ResolveKeys(dir, maps.add, orders.add, choose),
      ResolveKeys(dir, maps.remove, orders.remove, choose),
      ResolveKeys(dir, maps.replace, orders.replace, choose), i, j);
  }
}

=== FILE: distributor.dfy ===
/** The legacy pipeline. Rules are kept as strings `token/filename` under
    the editor id of the container they target. Colliding rules are
    recorded as provider lists, a winner is picked per collision by file
    name, identifiers are resolved into (object, count) placements, and
    the placements become calls on the containers, here a trace of events. */
module Distributor {
  import opened Base
  import opened Numbers
  import opened Forms
  import Utility

  /** The three kinds the legacy maps are built for. */
  datatype Kind = AddKind | RemoveKind | SwapKind

  /** Container editor id to its rule strings, each `token/filename`. */
  type RuleMap = map<string, seq<string>>

  /** A (file name, token) pair naming where a colliding rule came from. */
  datatype Provider = Provider(filename: string, token: string)

  /** Add and remove collisions are keyed by the item, swap collisions by
      both sides of the `^`; each key is paired with the container. */
  datatype ConflictKey = ItemKey(item: string) | PairKey(lhs: string, rhs: string)

  type ConflictMap = map<(ConflictKey, string), seq<Provider>>

  /** `s.substr(0, s.find('/'))`: the rule without its file name. */
  function TokenPart(s: string): string {
    Before(s, '/')
  }

  /** The item a token names: the text before its `|`. */
  function ItemOf(token: string): string {
    Before(token, '|')
  }

  /** The provider pair a rule string stands for. */
  function ProviderOf(s: string): Provider {
    Provider(After(s, '/'), TokenPart(s))
  }

  /** The conflict key a rule is recorded under. */
  function KeyOf(val: string, kind: Kind): ConflictKey {
    if kind == SwapKind then PairKey(Before(TokenPart(val), '^'), After(TokenPart(val), '^'))
    else ItemKey(ItemOf(TokenPart(val)))
  }

  /** The `find_if` predicate: a different string whose text before its
      first `|` (its file name included when it has no `|`) is `item`. */
  predicate Collides(s: string, val: string, item: string) {
    s != val && Before(s, '|') == item
  }

  function FirstCollision(copy: seq<string>, val: string, item: string): (i: nat)
    ensures i <= |copy|
    ensures i < |copy| ==> Collides(copy[i], val, item)
    ensures forall j | 0 <= j < i :: !Collides(copy[j], val, item)
  {
    if |copy| == 0 then 0
    else if Collides(copy[0], val, item) then 0
    else 1 + FirstCollision(copy[1..], val, item)
  }

  /** `std::erase(vec, s)`: every copy of `s` removed, the rest kept in order. */
  function Erase(copy: seq<string>, s: string): (r: seq<string>)
    ensures forall x :: x in r <==> x in copy && x != s
    ensures s in copy ==> |r| < |copy|
    ensures |r| <= |copy|
  {
    if |copy| == 0 then []
    else (if copy[0] == s then [] else [copy[0]]) + Erase(copy[1..], s)
  }

  /** The strings the provider loop visits: each colliding string once, in
      order of first appearance. */
  function Colliders(copy: seq<string>, val: string, item: string): (r: seq<string>)
    ensures forall s | s in r :: s in copy && Collides(s, val, item)
    ensures forall s | s in copy && Collides(s, val, item) :: s in r
    ensures forall i, j | 0 <= i < j < |r| :: r[i] != r[j]
    decreases |copy|
  {
    var i := FirstCollision(copy, val, item);
    if i == |copy| then []
    else
      var rest := Colliders(Erase(copy, copy[i]), val, item);
      assert copy[i] !in rest;
      [copy[i]] + rest
  }

  /** The provider list recorded for `val` within its container's list:
      none without a collision; otherwise `val`'s own pair first, then the
      pair of each colliding string once. */
  function ProvidersOf(vec: seq<string>, val: string): (r: Option<seq<Provider>>)
    ensures r.Some? ==> |r.value| >= 2 && r.value[0] == ProviderOf(val)
  {
    var others := Colliders(vec, val, ItemOf(TokenPart(val)));
    if |others| == 0 then None
    else Some([ProviderOf(val)] + seq(|others|, i requires 0 <= i < |others| => ProviderOf(others[i])))
  }

  /** A provider list exists exactly when some string collides with the value. */
  lemma ProvidersOfCollision(vec: seq<string>, val: string)
    ensures ProvidersOf(vec, val).Some? <==> exists s | s in vec :: Collides(s, val, ItemOf(TokenPart(val)))
  {
    var others := Colliders(vec, val, ItemOf(TokenPart(val)));
    if |others| > 0 {
      assert others[0] in others;
    }
  }

  /** One value of one container, with the container's whole list. */
  datatype Visit = Visit(cont: string, vec: seq<string>, val: string)

  /** The values of the listed containers in iteration order. Each carries
      its own container's list: strings of different containers never meet. */
  function Visits(m: RuleMap, order: seq<string>): (r: seq<Visit>)
    requires forall k | k in order :: k in m
    ensures forall v | v in r :: v.cont in order && v.vec == m[v.cont] && v.val in v.vec
  {
    if |order| == 0 then []
    else
      var k := order[0];
      var here := seq(|m[k]|, i requires 0 <= i < |m[k]| => Visit(k, m[k], m[k][i]));
      assert forall v | v in here :: v.cont == k && v.vec == m[k] && v.val in v.vec;
      here + Visits(m, order[1..])
  }

  /** The conflict-map fold: a colliding value's providers are emplaced
      under its key, and `emplace` leaves an existing entry alone. */
  function Record(cm: ConflictMap, visits: seq<Visit>, kind: Kind): ConflictMap
    decreases |visits|
  {
    if |visits| == 0 then cm
    else Record(RecordStep(cm, visits[0], kind), visits[1..], kind)
  }

  /** One visit of the fold. */
  function RecordStep(cm: ConflictMap, v: Visit, kind: Kind): ConflictMap {
    var ps := ProvidersOf(v.vec, v.val);
    var key := (KeyOf(v.val, kind), v.cont);
    if ps.Some? && key !in cm then cm[key := ps.value] else cm
  }

  /** `Distributor::BuildConflictMap` */
  function BuildConflictMap(cm: ConflictMap, m: RuleMap, order: seq<string>, kind: Kind): ConflictMap
    requires IsIterationOrder(order, m)
  {
    Record(cm, Visits(m, order), kind)
  }

  /** The visit records its providers under `key`. */
  predicate RecordsUnder(v: Visit, key: (ConflictKey, string), kind: Kind) {
    ProvidersOf(v.vec, v.val).Some? && (KeyOf(v.val, kind), v.cont) == key
  }

  /** Reference definition: the providers of the first visit recording
      under `key`, if any visit does. */
  function FirstRecorded(visits: seq<Visit>, key: (ConflictKey, string), kind: Kind): Option<seq<Provider>> {
    if |visits| == 0 then None
    else if RecordsUnder(visits[0], key, kind) then ProvidersOf(visits[0].vec, visits[0].val)
    else FirstRecorded(visits[1..], key, kind)
  }

  function Get<K, V>(m: map<K, V>, k: K): Option<V> {
    if k in m then Some(m[k]) else None
  }

  /** When some visit records under `key`, the first recorded providers are
      those of a visit that records there. */
  lemma {:induction false} FirstRecordedVisit(visits: seq<Visit>, key: (ConflictKey, string), kind: Kind) returns (v: Visit)
    requires FirstRecorded(visits, key, kind).Some?
    ensures v in visits && RecordsUnder(v, key, kind)
    ensures FirstRecorded(visits, key, kind) == ProvidersOf(v.vec, v.val)
    decreases |visits|
  {
    if RecordsUnder(visits[0], key, kind) {
      v := visits[0];
    } else {
      v := FirstRecordedVisit(visits[1..], key, kind);
      assert v in visits[1..];
    }
  }

  /** `emplace` leaves an entry that is already there. */
  lemma RecordStepKeeps(cm: ConflictMap, v: Visit, key: (ConflictKey, string), kind: Kind)
    requires key in cm
    ensures key in RecordStep(cm, v, kind) && RecordStep(cm, v, kind)[key] == cm[key]
  {
  }

  /** A visit that records under a new key emplaces its providers there. */
  lemma RecordStepAdds(cm: ConflictMap, v: Visit, key: (ConflictKey, string), kind: Kind)
    requires key !in cm && RecordsUnder(v, key, kind)
    ensures key in RecordStep(cm, v, kind) && RecordStep(cm, v, kind)[key] == ProvidersOf(v.vec, v.val).value
  {
  }

  /** Any other visit leaves a new key absent. */
  lemma RecordStepSkips(cm: ConflictMap, v: Visit, key: (ConflictKey, string), kind: Kind)
    requires key !in cm && !RecordsUnder(v, key, kind)
    ensures key !in RecordStep(cm, v, kind)
  {
  }

  /** A key of the built map keeps what it had, or else holds the providers
      of the first colliding value recorded under it. */
  lemma {:induction false} RecordSpec(cm: ConflictMap, visits: seq<Visit>, key: (ConflictKey, string), kind: Kind)
    ensures Get(Record(cm, visits, kind), key) == if key in cm then Some(cm[key]) else FirstRecorded(visits, key, kind)
    decreases |visits|
  {
    if |visits| > 0 {
      var v := visits[0];
      var next := RecordStep(cm, v, kind);
      RecordSpec(next, visits[1..], key, kind);
      if key in cm {
        RecordStepKeeps(cm, v, key, kind);
      } else if RecordsUnder(v, key, kind) {
        RecordStepAdds(cm, v, key, kind);
      } else {
        RecordStepSkips(cm, v, key, kind);
      }
    }
  }

  /** A key is recorded only for a value that collides with a different
      string of the same container, and only with that value's providers. */
  lemma BuiltEntriesCollide(cm: ConflictMap, m: RuleMap, order: seq<string>, kind: Kind, key: (ConflictKey, string))
    requires IsIterationOrder(order, m)
    requires key in BuildConflictMap(cm, m, order, kind) && key !in cm
    ensures key.1 in m && exists val | val in m[key.1] ::
      && KeyOf(val, kind) == key.0
      && (exists s | s in m[key.1] :: Collides(s, val, ItemOf(TokenPart(val))))
      && ProvidersOf(m[key.1], val).Some?
      && BuildConflictMap(cm, m, order, kind)[key] == ProvidersOf(m[key.1], val).value
  {
    var visits := Visits(m, order);
    RecordSpec(cm, visits, key, kind);
    var v := FirstRecordedVisit(visits, key, kind);
    assert v.cont == key.1 && v.vec == m[key.1] && v.val in m[key.1];
    var val := v.val;
    ProvidersOfCollision(m[key.1], val);
    assert KeyOf(val, kind) == key.0;
    assert exists s | s in m[key.1] :: Collides(s, val, ItemOf(TokenPart(val)));
    assert BuildConflictMap(cm, m, order, kind)[key] == ProvidersOf(m[key.1], val).value;
  }

  // ---------------------------------------------------------------------
  // Preparing additions and removals.

  /** An object with the count it is placed with. */
  datatype Placement = Placement(obj: Form, count: int32)

  /** Container editor id to its placements. */
  type PlacementMap = map<string, seq<Placement>>

  /** No provider list is empty: every recorded list starts with its own pair. */
  predicate NonEmptyLists(cm: ConflictMap) {
    forall k | k in cm :: |cm[k]| > 0
  }

  /** `p` sorts no later than any provider of `ps` by file name. */
  predicate IsEarliest(p: Provider, ps: seq<Provider>) {
    forall q | q in ps :: LexLeq(p.filename, q.filename)
  }

  lemma {:induction false} EarliestExists(ps: seq<Provider>)
    requires |ps| > 0
    ensures exists p | p in ps :: IsEarliest(p, ps)
  {
    if |ps| > 1 {
      assert ps == [ps[0]] + ps[1..];
      EarliestExists(ps[1..]);
      var m :| m in ps[1..] && IsEarliest(m, ps[1..]);
      LexLeqTotal(ps[0].filename, m.filename);
      if LexLeq(ps[0].filename, m.filename) {
        forall q | q in ps ensures LexLeq(ps[0].filename, q.filename) {
          if q != ps[0] {
            assert q in ps[1..];
            LexLeqTransitive(ps[0].filename, m.filename, q.filename);
          } else {
            LexLeqTotal(q.filename, q.filename);
          }
        }
      } else {
        forall q | q in ps ensures LexLeq(m.filename, q.filename) {
          if q != ps[0] {
            assert q in ps[1..];
          }
        }
        assert m in ps;
      }
    } else {
      LexLeqTotal(ps[0].filename, ps[0].filename);
      assert forall q | q in ps :: q == ps[0];
      assert IsEarliest(ps[0], ps);
      assert ps[0] in ps;
    }
  }

  /** The providers an ascending sort by file name may leave in front. */
  function Earliest(ps: seq<Provider>, all: seq<Provider>): (r: seq<Provider>)
    ensures forall p :: p in r <==> p in ps && IsEarliest(p, all)
  {
    if |ps| == 0 then []
    else (if IsEarliest(ps[0], all) then [ps[0]] else []) + Earliest(ps[1..], all)
  }

  /** The sort is unstable, so among equal file names the chooser names
      the one left in front. */
  type ProviderChooser = seq<Provider> -> nat

  /** `providers.front()` after the sort: a provider with the smallest
      file name. */
  function Front(ps: seq<Provider>, choose: ProviderChooser): (r: Provider)
    requires |ps| > 0
    ensures r in ps && IsEarliest(r, ps)
  {
    EarliestExists(ps);
    var e := Earliest(ps, ps);
    assert |e| > 0 by {
      var p :| p in ps && IsEarliest(p, ps);
      assert p in e;
    }
    assert e[choose(e) % |e|] in e;
    e[choose(e) % |e|]
  }

  /** The item of a rule string: the token's text before its `|`. */
  function RuleItem(s: string): string {
    ItemOf(TokenPart(s))
  }

  /** The count of a rule string: `strtol` from just after the token's `|`;
      without a `|` the index wraps to 0 and the whole string is read. */
  function RuleCount(s: string): int32 {
    var bar := Find(TokenPart(s), '|');
    ToInt32(s[Next(bar)..])
  }

  /** The winner's item and count, read from its token. */
  function TokenCount(token: string): int32 {
    ToInt32(After(token, '|'))
  }

  /** Lines 141-169: an editor id without `~`; otherwise a form id read
      from the text before the `~` and the plugin name after it. Only
      bound objects are kept. */
  function LookupItem(dir: Directory, item: string): (r: Option<Form>)
    ensures r.Some? ==> r.value.isBoundObject
    ensures '~' !in item ==> r == AsBoundObject(LookupByEditorId(dir, item))
    ensures '~' in item ==> r == AsBoundObject(LookupForm(dir, ToUInt32(Before(item, '~')), After(item, '~')))
  {
    var tilde := Find(item, '~');
    if !IsPresent(tilde) then AsBoundObject(LookupByEditorId(dir, item))
    else AsBoundObject(LookupForm(dir, ToUInt32(Take(item, tilde)), item[Next(tilde)..]))
  }

  /** The legacy lookup resolves an item exactly as the current pipeline's
      `get_bound_object` does: the substring before the `~` and the whole
      identifier read as the same form id. */
  lemma LookupItemIsGetBoundObject(dir: Directory, item: string)
    ensures LookupItem(dir, item) == Utility.GetBoundObject(dir, item)
  {
    if '~' in item {
      var fp := Utility.GetFormIdAndPluginName(item);
      assert fp.formId == ToUInt32(Before(item, '~'));
      assert fp.pluginName == After(item, '~');
    }
  }

  /** Every placement is of a bound object. */
  predicate AllBound(ps: seq<Placement>) {
    forall p | p in ps :: p.obj.isBoundObject
  }

  predicate AllListsBound(pm: PlacementMap) {
    forall k | k in pm :: AllBound(pm[k])
  }

  /** What one container's pass has built so far. */
  datatype AddRemoveState = AddRemoveState(conflicts: ConflictMap, resolved: set<string>, placed: seq<Placement>)

  /** Append the item's placement when the item resolves; drop it silently otherwise. */
  function Place(dir: Directory, st: AddRemoveState, item: string, count: int32): (r: AddRemoveState)
    ensures r.conflicts == st.conflicts && r.resolved == st.resolved
    ensures LookupItem(dir, item).Some? ==> r.placed == st.placed + [Placement(LookupItem(dir, item).value, count)]
    ensures LookupItem(dir, item).None? ==> r.placed == st.placed
    ensures IsPrefix(st.placed, r.placed) && |r.placed| <= |st.placed| + 1
    ensures AllBound(st.placed) ==> AllBound(r.placed)
  {
    var obj := LookupItem(dir, item);
    if obj.Some? then st.(placed := st.placed + [Placement(obj.value, count)]) else st
  }

  /** One rule of one container, lines 117-169. */
  function AddRemoveStep(dir: Directory, cont: string, st: AddRemoveState, s: string, choose: ProviderChooser): (r: AddRemoveState)
    requires NonEmptyLists(st.conflicts)
    ensures NonEmptyLists(r.conflicts) && r.conflicts.Keys <= st.conflicts.Keys
    ensures st.resolved <= r.resolved
    ensures IsPrefix(st.placed, r.placed) && |r.placed| <= |st.placed| + 1
    ensures AllBound(st.placed) ==> AllBound(r.placed)
    ensures RuleItem(s) in st.resolved ==> r == st
  {
    var item := RuleItem(s);
    if item in st.resolved then st
    else
      var key := (ItemKey(item), cont);
      if key in st.conflicts then
        var w := Front(st.conflicts[key], choose);
        Place(dir, AddRemoveState(st.conflicts - {key}, st.resolved + {ItemOf(w.token)}, st.placed), ItemOf(w.token), TokenCount(w.token))
      else Place(dir, st, item, RuleCount(s))
  }

  /** A rule whose item has a recorded conflict is replaced by the provider
      with the smallest file name: its item and count are placed, the
      conflict is erased, and the winner's item counts as resolved. */
  lemma StepOnConflict(dir: Directory, cont: string, st: AddRemoveState, s: string, choose: ProviderChooser)
    requires NonEmptyLists(st.conflicts)
    requires RuleItem(s) !in st.resolved && (ItemKey(RuleItem(s)), cont) in st.conflicts
    ensures var r := AddRemoveStep(dir, cont, st, s, choose);
      var ps := st.conflicts[(ItemKey(RuleItem(s)), cont)];
      exists w | w in ps && IsEarliest(w, ps) ::
        && ItemOf(w.token) in r.resolved
        && (ItemKey(RuleItem(s)), cont) !in r.conflicts
        && r.placed == st.placed + (match LookupItem(dir, ItemOf(w.token))
             case Some(o) => [Placement(o, TokenCount(w.token))]
             case None => [])
  {
    var ps := st.conflicts[(ItemKey(RuleItem(s)), cont)];
    var w := Front(ps, choose);
    assert w in ps && IsEarliest(w, ps);
  }

  /** A rule without a recorded conflict places its own item and count, if
      the item resolves. */
  lemma StepWithoutConflict(dir: Directory, cont: string, st: AddRemoveState, s: string, choose: ProviderChooser)
    requires NonEmptyLists(st.conflicts)
    requires RuleItem(s) !in st.resolved && (ItemKey(RuleItem(s)), cont) !in st.conflicts
    ensures var r := AddRemoveStep(dir, cont, st, s, choose);
      && r.conflicts == st.conflicts && r.resolved == st.resolved
      && r.placed == st.placed + (match LookupItem(dir, RuleItem(s))
           case Some(o) => [Placement(o, RuleCount(s))]
           case None => [])
  {
  }

  /** The rules of one container in order. */
  function ProcessRules(dir: Directory, cont: string, st: AddRemoveState, vec: seq<string>, choose: ProviderChooser): (r: AddRemoveState)
    requires NonEmptyLists(st.conflicts)
    ensures NonEmptyLists(r.conflicts) && r.conflicts.Keys <= st.conflicts.Keys
    ensures |r.placed| <= |st.placed| + |vec|
    ensures AllBound(st.placed) ==> AllBound(r.placed)
    decreases |vec|
  {
    if |vec| == 0 then st
    else ProcessRules(dir, cont, AddRemoveStep(dir, cont, st, vec[0], choose), vec[1..], choose)
  }

  /** A container's pass only adds to the resolved items and only appends
      placements. */
  lemma {:induction false} ProcessRulesExtends(dir: Directory, cont: string, st: AddRemoveState, vec: seq<string>, choose: ProviderChooser)
    requires NonEmptyLists(st.conflicts)
    ensures var r := ProcessRules(dir, cont, st, vec, choose);
      st.resolved <= r.resolved && IsPrefix(st.placed, r.placed)
    decreases |vec|
  {
    if |vec| > 0 {
      var next := AddRemoveStep(dir, cont, st, vec[0], choose);
      ProcessRulesExtends(dir, cont, next, vec[1..], choose);
      PrefixTransitive(st.placed, next.placed, ProcessRules(dir, cont, next, vec[1..], choose).placed);
    }
  }

  lemma {:induction false} ProcessRulesAppend(dir: Directory, cont: string, st: AddRemoveState, a: seq<string>, b: seq<string>, choose: ProviderChooser)
    requires NonEmptyLists(st.conflicts)
    ensures ProcessRules(dir, cont, st, a + b, choose) == ProcessRules(dir, cont, ProcessRules(dir, cont, st, a, choose), b, choose)
    decreases |a|
  {
    if |a| > 0 {
      assert (a + b)[0] == a[0] && (a + b)[1..] == a[1..] + b;
      ProcessRulesAppend(dir, cont, AddRemoveStep(dir, cont, st, a[0], choose), a[1..], b, choose);
    } else {
      assert a + b == b;
    }
  }

  /** Once an item is resolved in a container's pass, a later rule naming
      it changes nothing: deleting that rule leaves the result as it is. */
  lemma ResolvedRuleIsInert(dir: Directory, cont: string, st: AddRemoveState, pre: seq<string>, s: string, post: seq<string>, choose: ProviderChooser)
    requires NonEmptyLists(st.conflicts)
    requires RuleItem(s) in ProcessRules(dir, cont, st, pre, choose).resolved
    ensures ProcessRules(dir, cont, st, pre + [s] + post, choose) == ProcessRules(dir, cont, st, pre + post, choose)
  {
    var mid := ProcessRules(dir, cont, st, pre, choose);
    assert pre + [s] + post == pre + ([s] + post);
    ProcessRulesAppend(dir, cont, st, pre, [s] + post, choose);
    ProcessRulesAppend(dir, cont, st, pre, post, choose);
    assert ([s] + post)[0] == s && ([s] + post)[1..] == post;
  }

  /** Reference definition: each rule placed as written, its own item and
      count, when the item resolves. */
  function DirectPlacements(dir: Directory, vec: seq<string>): (r: seq<Placement>)
    ensures |r| <= |vec|
  {
    if |vec| == 0 then []
    else
      (match LookupItem(dir, RuleItem(vec[0]))
       case Some(o) => [Placement(o, RuleCount(vec[0]))]
       case None => [])
      + DirectPlacements(dir, vec[1..])
  }

  /** A container none of whose items has a recorded conflict gets every
      resolvable rule placed as written, repeats included. */
  lemma {:induction false} WithoutConflictsEveryRuleIsPlaced(dir: Directory, cont: string, st: AddRemoveState, vec: seq<string>, choose: ProviderChooser)
    requires NonEmptyLists(st.conflicts)
    requires st.resolved == {}
    requires forall s | s in vec :: (ItemKey(RuleItem(s)), cont) !in st.conflicts
    ensures ProcessRules(dir, cont, st, vec, choose) == st.(placed := st.placed + DirectPlacements(dir, vec))
    decreases |vec|
  {
    if |vec| > 0 {
      var next := AddRemoveStep(dir, cont, st, vec[0], choose);
      var head := match LookupItem(dir, RuleItem(vec[0])) case Some(o) => [Placement(o, RuleCount(vec[0]))] case None => [];
      StepWithoutConflict(dir, cont, st, vec[0], choose);
      assert next == st.(placed := st.placed + head);
      assert forall s | s in vec[1..] :: s in vec;
      WithoutConflictsEveryRuleIsPlaced(dir, cont, next, vec[1..], choose);
      assert DirectPlacements(dir, vec) == head + DirectPlacements(dir, vec[1..]);
      ConcatAssoc(st.placed, head, DirectPlacements(dir, vec[1..]));
    } else {
      assert st.placed + [] == st.placed;
    }
  }

  /** `emplace`: a key already present keeps its value. */
  function Emplace<V>(m: map<string, V>, k: string, v: V): (r: map<string, V>)
    ensures r.Keys == m.Keys + {k}
    ensures k !in m ==> r[k] == v
    ensures forall j | j in m :: r[j] == m[j]
  {
    if k in m then m else m[k := v]
  }

  /** `Distributor::PrepareAddRemoveDistribution`: each container's rules,
      with a fresh resolved set, emplaced under the container. The conflict
      map is shared and loses the keys it resolves. */
  function PrepareAddRemoveDistribution(dir: Directory, m: RuleMap, order: seq<string>, cm: ConflictMap, out: PlacementMap, choose: ProviderChooser): (r: (PlacementMap, ConflictMap))
    requires forall k | k in order :: k in m
    requires NonEmptyLists(cm)
    ensures forall k :: k in r.0 <==> k in out || k in order
    ensures forall k | k in out :: r.0[k] == out[k]
    ensures NonEmptyLists(r.1) && r.1.Keys <= cm.Keys
  {
    if |order| == 0 then (out, cm)
    else
      var k := order[0];
      var st := ProcessRules(dir, k, AddRemoveState(cm, {}, []), m[k], choose);
      var r := PrepareAddRemoveDistribution(dir, m, order[1..], st.conflicts, Emplace(out, k, st.placed), choose);
      r
  }

  /** A container's list holds at most one placement per rule. */
  lemma {:induction false} PreparedListsAreBounded(dir: Directory, m: RuleMap, order: seq<string>, cm: ConflictMap, out: PlacementMap, choose: ProviderChooser)
    requires forall k | k in order :: k in m
    requires NonEmptyLists(cm)
    ensures var r := PrepareAddRemoveDistribution(dir, m, order, cm, out, choose).0;
      forall k | k in order && k !in out :: |r[k]| <= |m[k]|
    decreases |order|
  {
    if |order| > 0 {
      var k := order[0];
      var st := ProcessRules(dir, k, AddRemoveState(cm, {}, []), m[k], choose);
      var out' := Emplace(out, k, st.placed);
      PreparedListsAreBounded(dir, m, order[1..], st.conflicts, out', choose);
      var r := PrepareAddRemoveDistribution(dir, m, order, cm, out, choose).0;
      assert r == PrepareAddRemoveDistribution(dir, m, order[1..], st.conflicts, out', choose).0;
      forall j | j in order && j !in out
        ensures |r[j]| <= |m[j]|
      {
        if j == k {
          assert r[j] == out'[j] == st.placed;
        } else {
          assert j in order[1..] && j !in out';
        }
      }
    }
  }

  /** Only bound objects are ever placed. */
  lemma {:induction false} PreparedObjectsAreBound(dir: Directory, m: RuleMap, order: seq<string>, cm: ConflictMap, out: PlacementMap, choose: ProviderChooser)
    requires forall k | k in order :: k in m
    requires NonEmptyLists(cm)
    requires AllListsBound(out)
    ensures AllListsBound(PrepareAddRemoveDistribution(dir, m, order, cm, out, choose).0)
    decreases |order|
  {
    if |order| > 0 {
      var k := order[0];
      var st := ProcessRules(dir, k, AddRemoveState(cm, {}, []), m[k], choose);
      assert AllBound(st.placed) by {
        assert AllBound([]);
      }
      var out' := Emplace(out, k, st.placed);
      assert AllListsBound(out') by {
        forall j | j in out' ensures AllBound(out'[j]) {
          if j !in out { assert out'[j] == st.placed; }
        }
      }
      PreparedObjectsAreBound(dir, m, order[1..], st.conflicts, out', choose);
      assert PrepareAddRemoveDistribution(dir, m, order, cm, out, choose)
          == PrepareAddRemoveDistribution(dir, m, order[1..], st.conflicts, out', choose);
    }
  }

  // ---------------------------------------------------------------------
  // Preparing swaps.

  /** A swap: the placement taken out and the placement put in. */
  datatype SwapPair = SwapPair(lhs: Placement, rhs: Placement)

  /** Container editor id to its swaps. */
  type SwapMap = map<string, seq<SwapPair>>

  /** A computation that completes, or ends the process: an out-of-range
      `substr` throws inside a `noexcept` function, which terminates. */
  datatype Outcome<T> = Aborted | Done(value: T)

  /** The two sides of a swap rule's token, each `item|count`. */
  function LhsOf(s: string): string {
    Before(TokenPart(s), '^')
  }

  function RhsOf(s: string): string {
    After(TokenPart(s), '^')
  }

  /** The pair of items a swap rule is remembered by once resolved. */
  function SwapItems(s: string): (string, string) {
    (ItemOf(LhsOf(s)), ItemOf(RhsOf(s)))
  }

  /** The plugin name the right-hand side is looked up in: read from the
      LEFT item, starting just past the position of the right item's `~`.
      A start past the end of the left item throws. */
  function RhsPlugin(lhsItem: string, rhsItem: string): (r: Option<string>)
    ensures r.None? <==> '~' in rhsItem && |Before(rhsItem, '~')| >= |lhsItem|
    ensures r.Some? ==> |r.value| <= |lhsItem| && r.value == lhsItem[|lhsItem| - |r.value|..]
    ensures '~' in rhsItem && r.Some? ==> |r.value| == |lhsItem| - |Before(rhsItem, '~')| - 1
    ensures '~' !in rhsItem ==> r == Some(lhsItem)
  {
    var start := Next(Find(rhsItem, '~'));
    if start <= |lhsItem| then Some(lhsItem[start..]) else None
  }

  /** Only the length of the right item's form id matters: whatever plugin
      the right item names, the same plugin name is looked up. */
  lemma RhsPluginIgnoresRhsPlugin(lhsItem: string, rhsId: string, p: string, q: string)
    requires '~' !in rhsId
    ensures RhsPlugin(lhsItem, rhsId + "~" + p) == RhsPlugin(lhsItem, rhsId + "~" + q)
  {
    SplitAt(rhsId, '~', p);
    SplitAt(rhsId, '~', q);
    assert Find(rhsId + "~" + p, '~') == At(|rhsId|);
    assert Find(rhsId + "~" + q, '~') == At(|rhsId|);
  }

  /** Both sides found as bound objects make a swap; otherwise nothing. */
  function Pair(lhs: Option<Form>, lhsCount: int32, rhs: Option<Form>, rhsCount: int32): (r: Option<SwapPair>)
    ensures r.Some? <==> lhs.Some? && rhs.Some?
  {
    if lhs.Some? && rhs.Some? then Some(SwapPair(Placement(lhs.value, lhsCount), Placement(rhs.value, rhsCount))) else None
  }

  /** Lines 234-285: the left item decides the mode for both sides. */
  function LookupSwap(dir: Directory, lhsItem: string, lhsCount: int32, rhsItem: string, rhsCount: int32): (r: Outcome<Option<SwapPair>>)
    ensures r.Aborted? <==> '~' in lhsItem && RhsPlugin(lhsItem, rhsItem).None?
    ensures '~' !in lhsItem ==> r == Done(Pair(AsBoundObject(LookupByEditorId(dir, lhsItem)), lhsCount,
                                               AsBoundObject(LookupByEditorId(dir, rhsItem)), rhsCount))
    ensures '~' in lhsItem && r.Done? ==>
      r.value == Pair(AsBoundObject(LookupForm(dir, ToUInt32(Before(lhsItem, '~')), After(lhsItem, '~'))), lhsCount,
                      AsBoundObject(LookupForm(dir, ToUInt32(Before(rhsItem, '~')), RhsPlugin(lhsItem, rhsItem).value)), rhsCount)
    ensures r.Done? && r.value.Some? ==> r.value.value.lhs.obj.isBoundObject && r.value.value.rhs.obj.isBoundObject
    ensures r.Done? && r.value.Some? ==> r.value.value.lhs.count == lhsCount && r.value.value.rhs.count == rhsCount
  {
    var lhsTilde := Find(lhsItem, '~');
    var rhsTilde := Find(rhsItem, '~');
    if !IsPresent(lhsTilde) then
      Done(Pair(AsBoundObject(LookupByEditorId(dir, lhsItem)), lhsCount, AsBoundObject(LookupByEditorId(dir, rhsItem)), rhsCount))
    else
      match RhsPlugin(lhsItem, rhsItem)
      case None => Aborted
      case Some(rhsPlugin) =>
        var lhs := AsBoundObject(LookupForm(dir, ToUInt32(Take(lhsItem, lhsTilde)), lhsItem[Next(lhsTilde)..]));
        var rhs := AsBoundObject(LookupForm(dir, ToUInt32(Take(rhsItem, rhsTilde)), rhsPlugin));
        Done(Pair(lhs, lhsCount, rhs, rhsCount))
  }

  /** When both items put their `~` at the same position, the right item's
      form id is looked up in the LEFT item's plugin, whatever plugin the
      right item names. */
  lemma RhsIsLookedUpInLhsPlugin(dir: Directory, lhsId: string, lhsPlugin: string, lhsCount: int32,
                                 rhsId: string, rhsPlugin: string, rhsCount: int32)
    requires '~' !in lhsId && '~' !in rhsId && |lhsId| == |rhsId|
    ensures RhsPlugin(lhsId + "~" + lhsPlugin, rhsId + "~" + rhsPlugin) == Some(lhsPlugin)
    ensures LookupSwap(dir, lhsId + "~" + lhsPlugin, lhsCount, rhsId + "~" + rhsPlugin, rhsCount)
      == Done(Pair(AsBoundObject(LookupForm(dir, ToUInt32(lhsId), lhsPlugin)), lhsCount,
                   AsBoundObject(LookupForm(dir, ToUInt32(rhsId), lhsPlugin)), rhsCount))
  {
    var lhsItem := lhsId + "~" + lhsPlugin;
    var rhsItem := rhsId + "~" + rhsPlugin;
    SplitAt(rhsId, '~', rhsPlugin);
    SplitAt(lhsId, '~', lhsPlugin);
    assert Find(rhsItem, '~') == At(|rhsId|);
    assert lhsItem[|lhsId| + 1..] == lhsPlugin;
    assert RhsPlugin(lhsItem, rhsItem) == Some(lhsPlugin);
    assert lhsItem[|lhsId|] == '~';
  }

  /** A left item shorter than the right item's form id ends the process,
      in any directory: `1~A` against `0x800~Skyrim.esm` is one such case. */
  lemma ShortLhsAborts(dir: Directory, lhsId: string, lhsPlugin: string, lhsCount: int32,
                       rhsId: string, rhsPlugin: string, rhsCount: int32)
    requires '~' !in lhsId && '~' !in rhsId
    requires |rhsId| > |lhsId| + |lhsPlugin|
    ensures LookupSwap(dir, lhsId + "~" + lhsPlugin, lhsCount, rhsId + "~" + rhsPlugin, rhsCount) == Aborted
  {
    SplitAt(rhsId, '~', rhsPlugin);
    assert Find(rhsId + "~" + rhsPlugin, '~') == At(|rhsId|);
    assert (lhsId + "~" + lhsPlugin)[|lhsId|] == '~';
  }

  /** What one container's swap pass has built so far. */
  datatype SwapState = SwapState(conflicts: ConflictMap, resolved: set<(string, string)>, placed: seq<SwapPair>)

  function PlaceSwap(dir: Directory, st: SwapState, lhsItem: string, lhsCount: int32, rhsItem: string, rhsCount: int32): (r: Outcome<SwapState>)
    ensures r.Aborted? <==> LookupSwap(dir, lhsItem, lhsCount, rhsItem, rhsCount).Aborted?
    ensures r.Done? ==> r.value.conflicts == st.conflicts && r.value.resolved == st.resolved
    ensures r.Done? ==> IsPrefix(st.placed, r.value.placed) && |r.value.placed| <= |st.placed| + 1
    ensures r.Done? ==> r.value.placed == st.placed + match LookupSwap(dir, lhsItem, lhsCount, rhsItem, rhsCount).value
                                                       case Some(p) => [p] case None => []
  {
    match LookupSwap(dir, lhsItem, lhsCount, rhsItem, rhsCount)
    case Aborted => Aborted
    case Done(None) => Done(st)
    case Done(Some(p)) => Done(st.(placed := st.placed + [p]))
  }

  /** One swap rule of one container, lines 189-285. */
  function SwapStep(dir: Directory, cont: string, st: SwapState, s: string, choose: ProviderChooser): (r: Outcome<SwapState>)
    requires NonEmptyLists(st.conflicts)
    ensures r.Done? ==> NonEmptyLists(r.value.conflicts) && r.value.conflicts.Keys <= st.conflicts.Keys
    ensures r.Done? ==> st.resolved <= r.value.resolved
    ensures r.Done? ==> IsPrefix(st.placed, r.value.placed) && |r.value.placed| <= |st.placed| + 1
    ensures SwapItems(s) in st.resolved ==> r == Done(st)
  {
    var lhs := LhsOf(s);
    var rhs := RhsOf(s);
    if SwapItems(s) in st.resolved then Done(st)
    else
      var key := (PairKey(lhs, rhs), cont);
      if key in st.conflicts then
        var w := Front(st.conflicts[key], choose);
        var winnerRhs := After(w.token, '^');
        PlaceSwap(dir, SwapState(st.conflicts - {key}, st.resolved + {SwapItems(s)}, st.placed),
                  ItemOf(lhs), TokenCount(lhs), ItemOf(winnerRhs), TokenCount(winnerRhs))
      else PlaceSwap(dir, st, ItemOf(lhs), TokenCount(lhs), ItemOf(rhs), TokenCount(rhs))
  }

  /** On a recorded conflict only the right-hand side comes from the
      provider with the smallest file name; the left side and its count
      stay the rule's own, and the rule's own item pair counts as resolved. */
  lemma SwapStepOnConflict(dir: Directory, cont: string, st: SwapState, s: string, choose: ProviderChooser)
    requires NonEmptyLists(st.conflicts)
    requires SwapItems(s) !in st.resolved && (PairKey(LhsOf(s), RhsOf(s)), cont) in st.conflicts
    ensures var ps := st.conflicts[(PairKey(LhsOf(s), RhsOf(s)), cont)];
      exists w | w in ps && IsEarliest(w, ps) ::
        SwapStep(dir, cont, st, s, choose)
          == PlaceSwap(dir, SwapState(st.conflicts - {(PairKey(LhsOf(s), RhsOf(s)), cont)}, st.resolved + {SwapItems(s)}, st.placed),
                       ItemOf(LhsOf(s)), TokenCount(LhsOf(s)), ItemOf(After(w.token, '^')), TokenCount(After(w.token, '^')))
  {
    var ps := st.conflicts[(PairKey(LhsOf(s), RhsOf(s)), cont)];
    var w := Front(ps, choose);
    assert w in ps && IsEarliest(w, ps);
  }

  /** A rule without a recorded conflict swaps its own left item and count
      for its own right item and count, as far as the lookup finds them. */
  lemma SwapStepWithoutConflict(dir: Directory, cont: string, st: SwapState, s: string, choose: ProviderChooser)
    requires NonEmptyLists(st.conflicts)
    requires SwapItems(s) !in st.resolved && (PairKey(LhsOf(s), RhsOf(s)), cont) !in st.conflicts
    ensures SwapStep(dir, cont, st, s, choose)
      == PlaceSwap(dir, st, ItemOf(LhsOf(s)), TokenCount(LhsOf(s)), ItemOf(RhsOf(s)), TokenCount(RhsOf(s)))
  {
  }

  /** The lookup of a swap rule's own two sides. */
  function OwnSwap(dir: Directory, s: string): Outcome<Option<SwapPair>> {
    LookupSwap(dir, ItemOf(LhsOf(s)), TokenCount(LhsOf(s)), ItemOf(RhsOf(s)), TokenCount(RhsOf(s)))
  }

  /** Reference definition: each swap rule taken as written, its own sides
      and counts, kept when both sides are found; the first rule whose
      lookup ends the process ends the whole list. */
  function DirectSwaps(dir: Directory, vec: seq<string>): (r: Outcome<seq<SwapPair>>)
    ensures r.Done? ==> |r.value| <= |vec|
  {
    if |vec| == 0 then Done([])
    else
      match OwnSwap(dir, vec[0])
      case Aborted => Aborted
      case Done(p) =>
        match DirectSwaps(dir, vec[1..])
        case Aborted => Aborted
        case Done(rest) => Done((match p case Some(q) => [q] case None => []) + rest)
  }

  /** No rule of `vec` has a conflict recorded for `cont`. */
  predicate NoSwapConflicts(cm: ConflictMap, cont: string, vec: seq<string>) {
    forall s | s in vec :: (PairKey(LhsOf(s), RhsOf(s)), cont) !in cm
  }

  /** The swap rules of one container in order; a termination ends the pass. */
  function ProcessSwapRules(dir: Directory, cont: string, st: SwapState, vec: seq<string>, choose: ProviderChooser): (r: Outcome<SwapState>)
    requires NonEmptyLists(st.conflicts)
    ensures r.Done? ==> NonEmptyLists(r.value.conflicts) && r.value.conflicts.Keys <= st.conflicts.Keys
    ensures r.Done? ==> |r.value.placed| <= |st.placed| + |vec|
    decreases |vec|
  {
    if |vec| == 0 then Done(st)
    else
      var step := SwapStep(dir, cont, st, vec[0], choose);
      if step.Aborted? then Aborted
      else ProcessSwapRules(dir, cont, step.value, vec[1..], choose)
  }

  /** A completed swap pass only adds to the resolved pairs and only
      appends swaps. */
  lemma {:induction false} ProcessSwapRulesExtends(dir: Directory, cont: string, st: SwapState, vec: seq<string>, choose: ProviderChooser)
    requires NonEmptyLists(st.conflicts)
    requires ProcessSwapRules(dir, cont, st, vec, choose).Done?
    ensures var r := ProcessSwapRules(dir, cont, st, vec, choose).value;
      st.resolved <= r.resolved && IsPrefix(st.placed, r.placed)
    decreases |vec|
  {
    if |vec| > 0 {
      var next := SwapStep(dir, cont, st, vec[0], choose).value;
      ProcessSwapRulesExtends(dir, cont, next, vec[1..], choose);
      PrefixTransitive(st.placed, next.placed, ProcessSwapRules(dir, cont, next, vec[1..], choose).value.placed);
    }
  }

  lemma {:induction false} ProcessSwapRulesAppend(dir: Directory, cont: string, st: SwapState, a: seq<string>, b: seq<string>, choose: ProviderChooser)
    requires NonEmptyLists(st.conflicts)
    ensures ProcessSwapRules(dir, cont, st, a + b, choose)
      == match ProcessSwapRules(dir, cont, st, a, choose)
         case Aborted => Aborted
         case Done(mid) => ProcessSwapRules(dir, cont, mid, b, choose)
    decreases |a|
  {
    if |a| > 0 {
      assert (a + b)[0] == a[0] && (a + b)[1..] == a[1..] + b;
      var step := SwapStep(dir, cont, st, a[0], choose);
      if step.Done? {
        ProcessSwapRulesAppend(dir, cont, step.value, a[1..], b, choose);
      }
    } else {
      assert a + b == b;
    }
  }

  /** Once a swap's item pair is resolved, a later rule with the same pair
      changes nothing, even one with other counts. */
  lemma ResolvedSwapRuleIsInert(dir: Directory, cont: string, st: SwapState, pre: seq<string>, s: string, post: seq<string>, choose: ProviderChooser)
    requires NonEmptyLists(st.conflicts)
    requires ProcessSwapRules(dir, cont, st, pre, choose).Done?
    requires SwapItems(s) in ProcessSwapRules(dir, cont, st, pre, choose).value.resolved
    ensures ProcessSwapRules(dir, cont, st, pre + [s] + post, choose) == ProcessSwapRules(dir, cont, st, pre + post, choose)
  {
    assert pre + [s] + post == pre + ([s] + post);
    ProcessSwapRulesAppend(dir, cont, st, pre, [s] + post, choose);
    ProcessSwapRulesAppend(dir, cont, st, pre, post, choose);
    assert ([s] + post)[0] == s && ([s] + post)[1..] == post;
  }

  /** A container none of whose swap rules has a recorded conflict swaps
      every rule as written, repeats included, and ends the process exactly
      when some rule's lookup does. */
  lemma {:induction false} WithoutConflictsEverySwapIsPlaced(dir: Directory, cont: string, st: SwapState, vec: seq<string>, choose: ProviderChooser)
    requires NonEmptyLists(st.conflicts)
    requires st.resolved == {}
    requires NoSwapConflicts(st.conflicts, cont, vec)
    ensures ProcessSwapRules(dir, cont, st, vec, choose)
      == match DirectSwaps(dir, vec)
         case Aborted => Aborted
         case Done(ps) => Done(st.(placed := st.placed + ps))
    decreases |vec|
  {
    if |vec| > 0 {
      var s := vec[0];
      SwapStepWithoutConflict(dir, cont, st, s, choose);
      match OwnSwap(dir, s)
      case Aborted =>
      case Done(p) =>
        var head := match p case Some(q) => [q] case None => [];
        var next := st.(placed := st.placed + head);
        assert SwapStep(dir, cont, st, s, choose) == Done(next);
        assert NoSwapConflicts(next.conflicts, cont, vec[1..]) by {
          assert forall t | t in vec[1..] :: t in vec;
        }
        WithoutConflictsEverySwapIsPlaced(dir, cont, next, vec[1..], choose);
        match DirectSwaps(dir, vec[1..])
        case Aborted =>
        case Done(rest) =>
          ConcatAssoc(st.placed, head, rest);
    } else {
      assert st.placed + [] == st.placed;
    }
  }

  /** `Distributor::PrepareSwapDistribution`: each container's swap rules,
      with a fresh resolved set, emplaced under the container, unless a
      rule ends the process. */
  function PrepareSwapDistribution(dir: Directory, m: RuleMap, order: seq<string>, cm: ConflictMap, out: SwapMap, choose: ProviderChooser): (r: Outcome<(SwapMap, ConflictMap)>)
    requires forall k | k in order :: k in m
    requires NonEmptyLists(cm)
    ensures r.Done? ==> forall k :: k in r.value.0 <==> k in out || k in order
    ensures r.Done? ==> forall k | k in out :: r.value.0[k] == out[k]
    ensures r.Done? ==> NonEmptyLists(r.value.1) && r.value.1.Keys <= cm.Keys
  {
    if |order| == 0 then Done((out, cm))
    else
      var k := order[0];
      match ProcessSwapRules(dir, k, SwapState(cm, {}, []), m[k], choose)
      case Aborted => Aborted
      case Done(st) =>
        var r := PrepareSwapDistribution(dir, m, order[1..], st.conflicts, Emplace(out, k, st.placed), choose);
        r
  }

  /** A container's swap list holds at most one pair per rule. */
  lemma {:induction false} PreparedSwapListsAreBounded(dir: Directory, m: RuleMap, order: seq<string>, cm: ConflictMap, out: SwapMap, choose: ProviderChooser)
    requires forall k | k in order :: k in m
    requires NonEmptyLists(cm)
    ensures var r := PrepareSwapDistribution(dir, m, order, cm, out, choose);
      r.Done? ==> forall k | k in order && k !in out :: |r.value.0[k]| <= |m[k]|
    decreases |order|
  {
    if |order| > 0 {
      var k := order[0];
      match ProcessSwapRules(dir, k, SwapState(cm, {}, []), m[k], choose)
      case Aborted =>
      case Done(st) =>
        var out' := Emplace(out, k, st.placed);
        PreparedSwapListsAreBounded(dir, m, order[1..], st.conflicts, out', choose);
        var r := PrepareSwapDistribution(dir, m, order, cm, out, choose);
        assert r == PrepareSwapDistribution(dir, m, order[1..], st.conflicts, out', choose);
        if r.Done? {
          forall j | j in order && j !in out
            ensures |r.value.0[j]| <= |m[j]|
          {
            if j == k {
              assert r.value.0[j] == out'[j] == st.placed;
            } else {
              assert j in order[1..] && j !in out';
            }
          }
        }
    }
  }

  /** Without recorded swap conflicts, the preparation completes exactly
      when no container's rule ends the process, and each new container
      key then holds its rules' swaps as written. */
  lemma {:induction false} PreparedSwapsWithoutConflicts(dir: Directory, m: RuleMap, order: seq<string>, cm: ConflictMap, out: SwapMap, choose: ProviderChooser)
    requires forall k | k in order :: k in m
    requires NonEmptyLists(cm)
    requires forall k | k in order :: NoSwapConflicts(cm, k, m[k])
    ensures var r := PrepareSwapDistribution(dir, m, order, cm, out, choose);
      && (r.Done? <==> forall k | k in order :: DirectSwaps(dir, m[k]).Done?)
      && (r.Done? ==> forall k | k in order && k !in out :: DirectSwaps(dir, m[k]) == Done(r.value.0[k]))
    decreases |order|
  {
    if |order| > 0 {
      var k := order[0];
      var r := PrepareSwapDistribution(dir, m, order, cm, out, choose);
      WithoutConflictsEverySwapIsPlaced(dir, k, SwapState(cm, {}, []), m[k], choose);
      match DirectSwaps(dir, m[k])
      case Aborted =>
        assert r == Aborted;
      case Done(ps) =>
        assert [] + ps == ps;
        var out' := Emplace(out, k, ps);
        assert forall j | j in order[1..] :: j in order;
        PreparedSwapsWithoutConflicts(dir, m, order[1..], cm, out', choose);
        assert r == PrepareSwapDistribution(dir, m, order[1..], cm, out', choose);
        assert forall j | j in order :: j == k || j in order[1..];
        if r.Done? {
          forall j | j in order && j !in out
            ensures DirectSwaps(dir, m[j]) == Done(r.value.0[j])
          {
            if j == k {
              assert r.value.0[j] == out'[j] == ps;
            } else {
              assert j in order[1..] && j !in out';
            }
          }
        }
    }
  }

  // ---------------------------------------------------------------------
  // Distribution, as the trace of calls made on containers.

  /** `AddObjectToContainer` and `RemoveObjectFromContainer`, tagged with
      the map whose distribution made the call. */
  datatype Event =
    | Added(phase: Kind, container: Form, obj: Form, count: int32)
    | Removed(phase: Kind, container: Form, obj: Form, count: int32)

  /** A key is distributed to only when the editor-id table has a form for
      it and that form is a container. */
  function ContainerFor(dir: Directory, k: string): (r: Option<Form>)
    ensures r.Some? <==> LookupByEditorId(dir, k).Some? && LookupByEditorId(dir, k).value.isContainer
    ensures r.Some? ==> r == LookupByEditorId(dir, k)
  {
    AsContainer(LookupByEditorId(dir, k))
  }

  /** The call one placement makes: an addition from the add map, a
      removal from the remove map. */
  function EventOf(phase: Kind, c: Form, p: Placement): Event {
    if phase == AddKind then Added(AddKind, c, p.obj, p.count) else Removed(RemoveKind, c, p.obj, p.count)
  }

  function PlacementEvents(phase: Kind, c: Form, ps: seq<Placement>): (r: seq<Event>)
    ensures |r| == |ps| && forall i | 0 <= i < |ps| :: r[i] == EventOf(phase, c, ps[i])
  {
    seq(|ps|, i requires 0 <= i < |ps| => EventOf(phase, c, ps[i]))
  }

  /** The calls for one key: none unless its form is a container. */
  function KeyEvents(dir: Directory, m: PlacementMap, k: string, phase: Kind): seq<Event>
    requires k in m
  {
    match ContainerFor(dir, k)
    case None => []
    case Some(c) => PlacementEvents(phase, c, m[k])
  }

  /** `AddDistribute` or `RemoveDistribute`: each key in the map's order,
      each placement in list order. */
  function AddRemoveDistribute(dir: Directory, m: PlacementMap, order: seq<string>, phase: Kind): (r: seq<Event>)
    requires phase != SwapKind
    requires forall k | k in order :: k in m
    ensures forall e | e in r :: e.phase == phase && (e.Added? <==> phase == AddKind)
  {
    if |order| == 0 then []
    else KeyEvents(dir, m, order[0], phase) + AddRemoveDistribute(dir, m, order[1..], phase)
  }

  /** Reference definition: a call the map asks for under key `k`, one of
      its placements, when its form is a container. */
  ghost predicate RequestedFor(dir: Directory, m: PlacementMap, k: string, phase: Kind, e: Event) {
    k in m && ContainerFor(dir, k).Some? && exists p | p in m[k] :: e == EventOf(phase, ContainerFor(dir, k).value, p)
  }

  /** A call the map asks for under some listed key. */
  ghost predicate Requested(dir: Directory, m: PlacementMap, order: seq<string>, phase: Kind, e: Event) {
    exists k | k in order :: RequestedFor(dir, m, k, phase, e)
  }

  lemma KeyEventsSpec(dir: Directory, m: PlacementMap, k: string, phase: Kind, e: Event)
    requires k in m
    ensures e in KeyEvents(dir, m, k, phase) <==> RequestedFor(dir, m, k, phase, e)
  {
    var here := KeyEvents(dir, m, k, phase);
    if e in here {
      var i :| 0 <= i < |here| && here[i] == e;
      assert m[k][i] in m[k];
    }
    if RequestedFor(dir, m, k, phase, e) {
      var p :| p in m[k] && e == EventOf(phase, ContainerFor(dir, k).value, p);
      var i :| 0 <= i < |m[k]| && m[k][i] == p;
      assert here[i] == e;
    }
  }

  /** Every call made is requested. */
  lemma {:induction false} AddRemoveDistributeSound(dir: Directory, m: PlacementMap, order: seq<string>, phase: Kind, e: Event)
    requires phase != SwapKind
    requires forall k | k in order :: k in m
    requires e in AddRemoveDistribute(dir, m, order, phase)
    ensures Requested(dir, m, order, phase, e)
    decreases |order|
  {
    var k := order[0];
    if e in KeyEvents(dir, m, k, phase) {
      KeyEventsSpec(dir, m, k, phase, e);
    } else {
      AddRemoveDistributeSound(dir, m, order[1..], phase, e);
      var k' :| k' in order[1..] && RequestedFor(dir, m, k', phase, e);
      assert k' in order;
    }
  }

  /** Every requested call is made. */
  lemma {:induction false} AddRemoveDistributeComplete(dir: Directory, m: PlacementMap, order: seq<string>, phase: Kind, e: Event)
    requires phase != SwapKind
    requires forall k | k in order :: k in m
    requires Requested(dir, m, order, phase, e)
    ensures e in AddRemoveDistribute(dir, m, order, phase)
    decreases |order|
  {
    var k := order[0];
    var k' :| k' in order && RequestedFor(dir, m, k', phase, e);
    if k' == k {
      KeyEventsSpec(dir, m, k, phase, e);
    } else {
      assert k' in order[1..];
      AddRemoveDistributeComplete(dir, m, order[1..], phase, e);
    }
  }

  /** Every call made is requested by the map, and every requested call is made. */
  lemma AddRemoveDistributeSpec(dir: Directory, m: PlacementMap, order: seq<string>, phase: Kind, e: Event)
    requires phase != SwapKind
    requires forall k | k in order :: k in m
    ensures e in AddRemoveDistribute(dir, m, order, phase) <==> Requested(dir, m, order, phase, e)
  {
    if e in AddRemoveDistribute(dir, m, order, phase) {
      AddRemoveDistributeSound(dir, m, order, phase, e);
    }
    if Requested(dir, m, order, phase, e) {
      AddRemoveDistributeComplete(dir, m, order, phase, e);
    }
  }

  /** One container's swaps: each removes its left side, then adds its right side. */
  function SwapEvents(c: Form, ps: seq<SwapPair>): (r: seq<Event>)
    ensures |r| == 2 * |ps|
    ensures forall i | 0 <= i < |ps| ::
      && r[2 * i] == Removed(SwapKind, c, ps[i].lhs.obj, ps[i].lhs.count)
      && r[2 * i + 1] == Added(SwapKind, c, ps[i].rhs.obj, ps[i].rhs.count)
    ensures forall e | e in r :: e.phase == SwapKind && e.container == c
  {
    seq(2 * |ps|, j requires 0 <= j < 2 * |ps| =>
      var p := ps[j / 2];
      if j % 2 == 0 then Removed(SwapKind, c, p.lhs.obj, p.lhs.count) else Added(SwapKind, c, p.rhs.obj, p.rhs.count))
  }

  /** The swap calls for one key: none unless its form is a container. */
  function SwapKeyEvents(dir: Directory, m: SwapMap, k: string): seq<Event>
    requires k in m
  {
    match ContainerFor(dir, k)
    case None => []
    case Some(c) => SwapEvents(c, m[k])
  }

  /** `SwapDistribute`: each key in the map's order. */
  function SwapDistribute(dir: Directory, m: SwapMap, order: seq<string>): (r: seq<Event>)
    requires forall k | k in order :: k in m
    ensures forall e | e in r :: e.phase == SwapKind
  {
    if |order| == 0 then []
    else SwapKeyEvents(dir, m, order[0]) + SwapDistribute(dir, m, order[1..])
  }

  /** Reference definition: the two calls one swap asks for on container
      `c`, the removal of its left side and the addition of its right side. */
  predicate SwapCall(c: Form, p: SwapPair, e: Event) {
    e == Removed(SwapKind, c, p.lhs.obj, p.lhs.count) || e == Added(SwapKind, c, p.rhs.obj, p.rhs.count)
  }

  /** A swap call the map asks for under key `k`, when its form is a container. */
  ghost predicate SwapRequestedFor(dir: Directory, m: SwapMap, k: string, e: Event) {
    k in m && ContainerFor(dir, k).Some? && exists p | p in m[k] :: SwapCall(ContainerFor(dir, k).value, p, e)
  }

  /** A swap call the map asks for under some listed key. */
  ghost predicate SwapRequested(dir: Directory, m: SwapMap, order: seq<string>, e: Event) {
    exists k | k in order :: SwapRequestedFor(dir, m, k, e)
  }

  /** Call `j` of a container's swaps is one of the calls of swap `j / 2`. */
  lemma SwapEventAt(c: Form, ps: seq<SwapPair>, j: nat)
    requires j < |SwapEvents(c, ps)|
    ensures j / 2 < |ps| && SwapCall(c, ps[j / 2], SwapEvents(c, ps)[j])
  {
    var i := j / 2;
    if j % 2 == 0 { assert j == 2 * i; } else { assert j == 2 * i + 1; }
  }

  /** Both calls of swap `i` are made. */
  lemma SwapCallsAt(c: Form, ps: seq<SwapPair>, i: nat, e: Event)
    requires i < |ps| && SwapCall(c, ps[i], e)
    ensures e in SwapEvents(c, ps)
  {
    var r := SwapEvents(c, ps);
    assert r[2 * i] in r && r[2 * i + 1] in r;
  }

  lemma SwapEventsSpec(c: Form, ps: seq<SwapPair>, e: Event)
    ensures e in SwapEvents(c, ps) <==> exists p | p in ps :: SwapCall(c, p, e)
  {
    var r := SwapEvents(c, ps);
    if e in r {
      var j :| 0 <= j < |r| && r[j] == e;
      SwapEventAt(c, ps, j);
      assert ps[j / 2] in ps;
    }
    if exists p | p in ps :: SwapCall(c, p, e) {
      var p :| p in ps && SwapCall(c, p, e);
      var i :| 0 <= i < |ps| && ps[i] == p;
      SwapCallsAt(c, ps, i, e);
    }
  }

  lemma SwapKeyEventsSpec(dir: Directory, m: SwapMap, k: string, e: Event)
    requires k in m
    ensures e in SwapKeyEvents(dir, m, k) <==> SwapRequestedFor(dir, m, k, e)
  {
    if ContainerFor(dir, k).Some? {
      SwapEventsSpec(ContainerFor(dir, k).value, m[k], e);
    }
  }

  /** Every swap call made is requested. */
  lemma {:induction false} SwapDistributeSound(dir: Directory, m: SwapMap, order: seq<string>, e: Event)
    requires forall k | k in order :: k in m
    requires e in SwapDistribute(dir, m, order)
    ensures SwapRequested(dir, m, order, e)
    decreases |order|
  {
    var k := order[0];
    if e in SwapKeyEvents(dir, m, k) {
      SwapKeyEventsSpec(dir, m, k, e);
    } else {
      SwapDistributeSound(dir, m, order[1..], e);
      var k' :| k' in order[1..] && SwapRequestedFor(dir, m, k', e);
      assert k' in order;
    }
  }

  /** Every requested swap call is made. */
  lemma {:induction false} SwapDistributeComplete(dir: Directory, m: SwapMap, order: seq<string>, e: Event)
    requires forall k | k in order :: k in m
    requires SwapRequested(dir, m, order, e)
    ensures e in SwapDistribute(dir, m, order)
    decreases |order|
  {
    var k := order[0];
    var k' :| k' in order && SwapRequestedFor(dir, m, k', e);
    if k' == k {
      SwapKeyEventsSpec(dir, m, k, e);
    } else {
      assert k' in order[1..];
      SwapDistributeComplete(dir, m, order[1..], e);
    }
  }

  /** Every swap call made is requested by the map, and every requested
      swap call is made: keys that are not containers are skipped. */
  lemma SwapDistributeSpec(dir: Directory, m: SwapMap, order: seq<string>, e: Event)
    requires forall k | k in order :: k in m
    ensures e in SwapDistribute(dir, m, order) <==> SwapRequested(dir, m, order, e)
  {
    if e in SwapDistribute(dir, m, order) {
      SwapDistributeSound(dir, m, order, e);
    }
    if SwapRequested(dir, m, order, e) {
      SwapDistributeComplete(dir, m, order, e);
    }
  }

  /** Swap calls come in pairs: a removal, then an addition on the same container. */
  predicate Paired(r: seq<Event>) {
    && |r| % 2 == 0
    && forall i | 0 <= i < |r| && i % 2 == 0 :: r[i].Removed? && r[i + 1].Added? && r[i].container == r[i + 1].container
  }

  /** An even position below an even length leaves room for its partner. */
  lemma EvenBelowEven(i: int, n: int)
    requires i % 2 == 0 && n % 2 == 0 && i < n
    ensures i + 1 < n
  {
  }

  lemma EvenDifference(i: int, n: int)
    requires i % 2 == 0 && n % 2 == 0
    ensures (i - n) % 2 == 0
  {
  }

  lemma PairedAppend(a: seq<Event>, b: seq<Event>)
    requires Paired(a) && Paired(b)
    ensures Paired(a + b)
  {
    forall i | 0 <= i < |a + b| && i % 2 == 0
      ensures (a + b)[i].Removed? && (a + b)[i + 1].Added? && (a + b)[i].container == (a + b)[i + 1].container
    {
      EvenBelowEven(i, |a + b|);
      if i < |a| {
        EvenBelowEven(i, |a|);
        assert (a + b)[i] == a[i] && (a + b)[i + 1] == a[i + 1];
      } else {
        EvenDifference(i, |a|);
        assert (a + b)[i] == b[i - |a|] && (a + b)[i + 1] == b[i - |a| + 1];
      }
    }
  }

  lemma SwapEventsPaired(c: Form, ps: seq<SwapPair>)
    ensures Paired(SwapEvents(c, ps))
  {
    var r := SwapEvents(c, ps);
    forall i | 0 <= i < |r| && i % 2 == 0 ensures r[i].Removed? && r[i + 1].Added? && r[i].container == r[i + 1].container {
      assert i == 2 * (i / 2);
      assert r[i] in r && r[i + 1] in r;
    }
  }

  /** Every swap's removal is immediately followed by its addition on the
      same container. */
  lemma {:induction false} SwapDistributePaired(dir: Directory, m: SwapMap, order: seq<string>)
    requires forall k | k in order :: k in m
    ensures Paired(SwapDistribute(dir, m, order))
    decreases |order|
  {
    if |order| > 0 {
      var k := order[0];
      var here := match ContainerFor(dir, k) case None => [] case Some(c) => SwapEvents(c, m[k]);
      if ContainerFor(dir, k).Some? {
        SwapEventsPaired(ContainerFor(dir, k).value, m[k]);
      }
      SwapDistributePaired(dir, m, order[1..]);
      PairedAppend(here, SwapDistribute(dir, m, order[1..]));
    }
  }

  /** `Distributor::Distribute`: the add map, then the remove map, then the swap map. */
  function Distribute(dir: Directory, add: PlacementMap, addOrder: seq<string>, remove: PlacementMap, removeOrder: seq<string>,
                      swap: SwapMap, swapOrder: seq<string>): seq<Event>
    requires IsIterationOrder(addOrder, add) && IsIterationOrder(removeOrder, remove) && IsIterationOrder(swapOrder, swap)
  {
    AddRemoveDistribute(dir, add, addOrder, AddKind) + AddRemoveDistribute(dir, remove, removeOrder, RemoveKind) + SwapDistribute(dir, swap, swapOrder)
  }

  function Rank(k: Kind): nat {
    match k
    case AddKind => 0
    case RemoveKind => 1
    case SwapKind => 2
  }

  /** Every event of `es` was issued by `phase`. */
  predicate AllOfPhase(es: seq<Event>, phase: Kind) {
    forall e | e in es :: e.phase == phase
  }

  /** Events of the add phase, then of the remove phase, then of the swap
      phase, never rank a later phase before an earlier one. */
  lemma RanksInOrder(a: seq<Event>, b: seq<Event>, c: seq<Event>)
    requires AllOfPhase(a, AddKind) && AllOfPhase(b, RemoveKind) && AllOfPhase(c, SwapKind)
    ensures var r := a + b + c;
      forall i, j | 0 <= i < j < |r| :: Rank(r[i].phase) <= Rank(r[j].phase)
  {
    var r := a + b + c;
    forall i | 0 <= i < |r| ensures Rank(r[i].phase) == if i < |a| then 0 else if i < |a| + |b| then 1 else 2 {
      if i < |a| { assert r[i] == a[i]; assert a[i] in a; }
      else if i < |a| + |b| { assert r[i] == b[i - |a|]; assert b[i - |a|] in b; }
      else { assert r[i] == c[i - |a| - |b|]; assert c[i - |a| - |b|] in c; }
    }
  }

  /** No call of a later phase comes before a call of an earlier one. */
  lemma PhasesInOrder(dir: Directory, add: PlacementMap, addOrder: seq<string>, remove: PlacementMap, removeOrder: seq<string>,
                      swap: SwapMap, swapOrder: seq<string>)
    requires IsIterationOrder(addOrder, add) && IsIterationOrder(removeOrder, remove) && IsIterationOrder(swapOrder, swap)
    ensures var r := Distribute(dir, add, addOrder, remove, removeOrder, swap, swapOrder);
      forall i, j | 0 <= i < j < |r| :: Rank(r[i].phase) <= Rank(r[j].phase)
  {
    RanksInOrder(AddRemoveDistribute(dir, add, addOrder, AddKind), AddRemoveDistribute(dir, remove, removeOrder, RemoveKind),
                 SwapDistribute(dir, swap, swapOrder));
  }
}

=== FILE: forms.dfy ===
/** The game-object directory both pipelines query. It is outside the
    plugin: forms are opaque values that expose only what the plugin asks
    of them, and the two lookup tables are partial maps. */
module Forms {
  import opened Base

  /** A game form: its `FormID`, display name, and whether `As<TESBoundObject>()`
      and `As<TESContainer>()` succeed on it. */
  datatype Form = Form(formId: uint32, name: string, isBoundObject: bool, isContainer: bool)

  /** `TESForm::LookupByEditorID` (the editor-id table that
      `GetAllFormsByEditorID` also exposes) and `TESDataHandler::LookupForm`
      keyed by (local form id, plugin file name). */
  datatype Directory = Directory(byEditorId: map<string, Form>, byFormId: map<(uint32, string), Form>)

  function LookupByEditorId(dir: Directory, editorId: string): Option<Form> {
    if editorId in dir.byEditorId then Some(dir.byEditorId[editorId]) else None
  }

  function LookupForm(dir: Directory, formId: uint32, plugin: string): Option<Form> {
    if (formId, plugin) in dir.byFormId then Some(dir.byFormId[(formId, plugin)]) else None
  }

  /** `As<TESBoundObject>()`: the form itself when it is a bound object, null otherwise. */
  function AsBoundObject(f: Option<Form>): (r: Option<Form>)
    ensures r.Some? <==> f.Some? && f.value.isBoundObject
    ensures r.Some? ==> r == f
  {
    if f.Some? && f.value.isBoundObject then f else None
  }

  /** `As<TESContainer>()` */
  function AsContainer(f: Option<Form>): (r: Option<Form>)
    ensures r.Some? <==> f.Some? && f.value.isContainer
    ensures r.Some? ==> r == f
  {
    if f.Some? && f.value.isContainer then f else None
  }
}

=== FILE: maps.dfy ===
/** The value types of the current pipeline and their log rendering. */
module Maps {
  import opened Base
  import opened Forms

  datatype DistrType = Add | Remove | RemoveAll | Replace | ReplaceAll | Error

  predicate IsReplace(t: DistrType) {
    t == Replace || t == ReplaceAll
  }

  /** One parsed rule. Seven fields; equality is structural, as the
      defaulted `operator==` compares every field. */
  datatype DistrToken = DistrToken(
    distrType: DistrType,
    filename: string,
    toIdentifier: string,
    identifier: string,
    count: Option<int32>,
    rhs: Option<string>,
    rhsCount: Option<int32>)

  /** The defaulted equality of a token compares all seven fields and nothing else. */
  lemma TokenEqualityIsFieldwise(a: DistrToken, b: DistrToken)
    ensures a == b <==>
      a.distrType == b.distrType && a.filename == b.filename && a.toIdentifier == b.toIdentifier
      && a.identifier == b.identifier && a.count == b.count && a.rhs == b.rhs && a.rhsCount == b.rhsCount
  {
  }

  /** A token as the tokenizer shapes it: replacement kinds carry a
      replacement and its count and the other kinds carry neither; add and
      remove carry a count, remove-all, replace-all and error do not. */
  predicate WellFormed(t: DistrToken) {
    && (IsReplace(t.distrType) <==> t.rhs.Some?)
    && (t.rhs.Some? <==> t.rhsCount.Some?)
    && ((t.distrType == Add || t.distrType == Remove) ==> t.count.Some?)
    && ((t.distrType == RemoveAll || t.distrType == ReplaceAll || t.distrType == Error) ==> t.count.None?)
  }

  /** A resolved target: the container (null when unresolved), its form id and name. */
  datatype Container = Container(container: Option<Form>, containerFormId: uint32, containerName: string) {
    /** `explicit operator bool`: the container pointer is non-null. */
    predicate IsTruthy() {
      container.Some?
    }
  }

  /** A resolved distribution entry. The replacement object is an optional
      pointer that is only ever filled with a non-null one, so `Option<Form>`. */
  datatype DistrObject = DistrObject(
    distrType: DistrType,
    boundObject: Option<Form>,
    count: Option<int32>,
    replaceWithObject: Option<Form>,
    replaceWithCount: Option<int32>,
    container: Option<Container>)

  /** Container identifier to the tokens aimed at it, in insertion order. */
  type TestMap = map<string, seq<DistrToken>>

  /** `format_as(DistrType)` */
  function TypeLabel(t: DistrType): (r: string)
    ensures t == Error <==> r == "ERROR"
  {
    match t
    case Add => "ADD"
    case Remove => "REMOVE"
    case RemoveAll => "REMOVE ALL"
    case Replace => "REPLACE"
    case ReplaceAll => "REPLACE ALL"
    case Error => "ERROR"
  }

  /** Each operation kind has its own label. */
  lemma TypeLabelInjective(a: DistrType, b: DistrType)
    ensures TypeLabel(a) == TypeLabel(b) ==> a == b
  {
  }

  /** `format_as(DistrToken)`: absent counts print as -1 and an absent rhs as "null". */
  function FormatToken(t: DistrToken): (r: string)
    ensures |r| > 6 && r[..6] == "Type: "
  {
    var fields := TypeLabel(t.distrType) + " / Filename: " + t.filename + " / To: " + t.toIdentifier
      + " / Identifier: " + t.identifier + " / Count: " + IntToString(t.count.GetOr(-1))
      + " / RHS: " + t.rhs.GetOr("null") + " / RHS Count: " + IntToString(t.rhsCount.GetOr(-1));
    "Type: " + fields
  }

  /** The log line cannot tell an absent count from a count of -1, nor an
      absent rhs from an rhs spelled "null". */
  lemma FormatTokenConflatesAbsence(t: DistrToken)
    ensures FormatToken(t.(count := None)) == FormatToken(t.(count := Some(-1)))
    ensures FormatToken(t.(rhsCount := None)) == FormatToken(t.(rhsCount := Some(-1)))
    ensures FormatToken(t.(rhs := None)) == FormatToken(t.(rhs := Some("null")))
  {
  }
}

=== FILE: numbers.dfy ===
/** `std::strtol(s, nullptr, 0)` and the two casts built on it, `to_int32`
    and `to_uint32`. Base 0 means: `0x`/`0X` followed by a hexadecimal digit
    selects base 16, any other leading `0` selects base 8, anything else
    base 10. Parsing reads the longest prefix of the chosen form and ignores
    the rest; with no digits at all the value is 0. A `long` is 32 bits on
    the target platform, so an out-of-range value clamps to the `int32`
    bounds. */
module Numbers {
  import opened Base

  const LONG_MIN: int := -0x8000_0000
  const LONG_MAX: int := 0x7FFF_FFFF

  /** `isspace` in the C locale: space, tab, newline, vertical tab, form feed, carriage return. */
  predicate IsSpace(c: char) {
    c == ' ' || 9 <= c as int <= 13
  }

  /** The value of `c` as a digit in bases up to 36; 36 for a non-digit. */
  function DigitValue(c: char): (v: nat)
    ensures v <= 36
  {
    if '0' <= c <= '9' then (c as int) - ('0' as int)
    else if 'a' <= c <= 'z' then (c as int) - ('a' as int) + 10
    else if 'A' <= c <= 'Z' then (c as int) - ('A' as int) + 10
    else 36
  }

  predicate IsDigitIn(c: char, base: nat) {
    DigitValue(c) < base
  }

  /** Length of the longest prefix of `s` made of digits of `base`. */
  function RunLength(s: string, base: nat): (n: nat)
    ensures n <= |s|
    ensures forall i | 0 <= i < n :: IsDigitIn(s[i], base)
    ensures n < |s| ==> !IsDigitIn(s[n], base)
  {
    if |s| == 0 || !IsDigitIn(s[0], base) then 0 else 1 + RunLength(s[1..], base)
  }

  /** Positional value of a digit string, most significant digit first. */
  function DigitsValue(d: string, base: nat): nat {
    if |d| == 0 then 0 else DigitsValue(d[..|d| - 1], base) * base + DigitValue(d[|d| - 1])
  }

  /** The value of the digit run at the start of `s`. */
  function Magnitude(s: string, base: nat): nat {
    DigitsValue(s[..RunLength(s, base)], base)
  }

  /** The base that base 0 selects: 16 for `0x`/`0X` followed by a
      hexadecimal digit, 8 for any other leading `0`, 10 otherwise. */
  function NumeralBase(r: string): (base: nat)
    ensures base == 16 ==> |r| >= 3 && r[0] == '0' && (r[1] == 'x' || r[1] == 'X') && IsDigitIn(r[2], 16)
    ensures base == 8 <==> |r| >= 1 && r[0] == '0' && base != 16
    ensures base == 10 <==> |r| == 0 || r[0] != '0'
  {
    if |r| >= 3 && r[0] == '0' && (r[1] == 'x' || r[1] == 'X') && IsDigitIn(r[2], 16) then 16
    else if |r| >= 1 && r[0] == '0' then 8
    else 10
  }

  /** The unsigned part of a base-0 numeral, after whitespace and sign:
      the digits after a `0x` prefix, or from the start. */
  function Unsigned(r: string): nat {
    var base := NumeralBase(r);
    Magnitude(if base == 16 then r[2..] else r, base)
  }

  function SkipSpace(s: string): (r: string)
    ensures |r| <= |s| && r == s[|s| - |r|..]
    ensures |r| > 0 ==> !IsSpace(r[0])
  {
    if |s| > 0 && IsSpace(s[0]) then SkipSpace(s[1..]) else s
  }

  function Clamp(v: int): (r: int)
    ensures LONG_MIN <= r <= LONG_MAX
    ensures LONG_MIN <= v <= LONG_MAX ==> r == v
  {
    if v < LONG_MIN then LONG_MIN else if v > LONG_MAX then LONG_MAX else v
  }

  /** The value of an optionally signed numeral, before clamping. */
  function Signed(t: string): int {
    var negative := |t| > 0 && t[0] == '-';
    var signed := negative || (|t| > 0 && t[0] == '+');
    var u := Unsigned(if signed then t[1..] else t);
    if negative then -(u as int) else u
  }

  /** `std::strtol(s, nullptr, 0)` with a 32-bit `long`. */
  function StrToL(s: string): (r: int32)
  {
    Clamp(Signed(SkipSpace(s)))
  }

  /** `to_int32`: `static_cast<std::int32_t>` of a 32-bit `long` keeps its value. */
  function ToInt32(s: string): int32 {
    StrToL(s)
  }

  /** `to_uint32`: `static_cast<std::uint32_t>` wraps negatives modulo 2^32. */
  function ToUInt32(s: string): uint32 {
    StrToL(s) % 0x1_0000_0000
  }

  /** A character that ends a rendered numeral: no decimal digit, and no `x`
      that could turn a lone `0` into a hexadecimal prefix. */
  predicate EndsNumeral(rest: string) {
    |rest| == 0 || (!IsDecimalDigit(rest[0]) && rest[0] != 'x' && rest[0] != 'X')
  }

  lemma {:induction false} DigitValueOfDigitChar(d: nat)
    requires d < 10
    ensures DigitValue(DigitChar(d)) == d
  {
  }

  lemma {:induction false} NatToStringValue(n: nat)
    ensures DigitsValue(NatToString(n), 10) == n
  {
    var r := NatToString(n);
    if n < 10 {
      DigitValueOfDigitChar(n);
      assert r[..0] == [];
    } else {
      NatToStringValue(n / 10);
      DigitValueOfDigitChar(n % 10);
      assert r[..|r| - 1] == NatToString(n / 10);
    }
  }

  /** The run of digits in a rendered numeral followed by a terminator is exactly the numeral. */
  lemma {:induction false} RunLengthOfDigits(d: string, rest: string, base: nat)
    requires forall i | 0 <= i < |d| :: IsDigitIn(d[i], base)
    requires |rest| == 0 || !IsDigitIn(rest[0], base)
    ensures RunLength(d + rest, base) == |d|
  {
    if |d| > 0 {
      assert (d + rest)[1..] == d[1..] + rest;
      RunLengthOfDigits(d[1..], rest, base);
    } else {
      assert d + rest == rest;
    }
  }

  lemma MagnitudeOfNatToString(n: nat, rest: string, base: nat)
    requires base == 10 || (base == 8 && n == 0)
    requires EndsNumeral(rest)
    ensures Magnitude(NatToString(n) + rest, base) == n
  {
    var d := NatToString(n);
    forall i | 0 <= i < |d| ensures IsDigitIn(d[i], base) {
      if base == 8 { assert d == "0"; }
    }
    RunLengthOfDigits(d, rest, base);
    assert (d + rest)[..|d|] == d;
    NatToStringValue(n);
    if base == 8 {
      assert d == [DigitChar(0)];
      assert DigitsValue(d, 8) == DigitsValue(d[..0], 8) * 8 + DigitValue(d[0]);
    }
  }

  lemma UnsignedOfNatToString(m: nat, rest: string)
    requires EndsNumeral(rest)
    ensures Unsigned(NatToString(m) + rest) == m
  {
    var d := NatToString(m);
    var r := d + rest;
    assert r[0] == d[0];
    if m == 0 {
      assert d == "0";
      assert |r| < 2 || r[1] == rest[0];
      MagnitudeOfNatToString(0, rest, 8);
    } else {
      MagnitudeOfNatToString(m, rest, 10);
    }
  }

  lemma SkipSpaceStops(s: string)
    requires |s| > 0 && !IsSpace(s[0])
    ensures SkipSpace(s) == s
  {
  }

  /** A numeral starting with a digit is read without sign. */
  lemma StrToLOfUnsigned(r: string)
    requires |r| > 0 && IsDecimalDigit(r[0])
    ensures StrToL(r) == Clamp(Unsigned(r))
  {
    SkipSpaceStops(r);
  }

  /** A numeral starting with `-` is read negated. */
  lemma StrToLOfNegative(r: string)
    requires |r| > 0 && r[0] == '-'
    ensures StrToL(r) == Clamp(-(Unsigned(r[1..]) as int))
  {
    SkipSpaceStops(r);
  }

  lemma StrToLReadsNatToString(m: nat, rest: string)
    requires m <= LONG_MAX
    requires EndsNumeral(rest)
    ensures StrToL(NatToString(m) + rest) == m
  {
    var s := NatToString(m) + rest;
    assert s[0] == NatToString(m)[0];
    StrToLOfUnsigned(s);
    UnsignedOfNatToString(m, rest);
  }

  lemma StrToLReadsNegativeNumeral(r: string, m: nat)
    requires 1 <= m <= -LONG_MIN
    requires Unsigned(r) == m
    ensures StrToL("-" + r) == -(m as int)
  {
    StrToLOfNegative("-" + r);
    assert ("-" + r)[1..] == r;
  }

  lemma StrToLReadsNegative(m: nat, rest: string)
    requires 1 <= m <= -LONG_MIN
    requires EndsNumeral(rest)
    ensures StrToL("-" + NatToString(m) + rest) == -(m as int)
  {
    var d := NatToString(m);
    var r := d + rest;
    UnsignedOfNatToString(m, rest);
    assert "-" + d + rest == "-" + r;
    StrToLReadsNegativeNumeral(r, m);
  }

  /** `strtol` reads back what `fmt` prints: the decimal rendering of any
      `int32`, followed by text that ends the numeral, parses to the same
      value; the text after it is ignored. */
  lemma StrToLReadsIntToString(n: int32, rest: string)
    requires EndsNumeral(rest)
    ensures StrToL(IntToString(n) + rest) == n
  {
    if n < 0 {
      StrToLReadsNegative(-(n as int), rest);
    } else {
      StrToLReadsNatToString(n, rest);
    }
  }

  /** `to_int32` of an `int32`'s rendering followed by a terminator. */
  lemma ToInt32ReadsIntToString(n: int32, rest: string)
    requires EndsNumeral(rest)
    ensures ToInt32(IntToString(n) + rest) == n
  {
    StrToLReadsIntToString(n, rest);
  }

  /** Reduction modulo 2^32 of a 32-bit signed value. */
  lemma WrapInt32(v: int32)
    ensures v >= 0 ==> v % 0x1_0000_0000 == v
    ensures v < 0 ==> v % 0x1_0000_0000 == v + 0x1_0000_0000
  {
  }

  lemma ToUInt32OfStrToL(s: string)
    ensures StrToL(s) >= 0 ==> ToUInt32(s) == StrToL(s)
    ensures StrToL(s) < 0 ==> ToUInt32(s) == StrToL(s) + 0x1_0000_0000
  {
    WrapInt32(StrToL(s));
  }

  /** `to_uint32` of a non-negative `int32`'s rendering followed by a terminator. */
  lemma ToUInt32ReadsNatToString(n: nat, rest: string)
    requires n <= LONG_MAX
    requires EndsNumeral(rest)
    ensures ToUInt32(NatToString(n) + rest) == n
  {
    var s := NatToString(n) + rest;
    StrToLReadsNatToString(n, rest);
    ToUInt32OfStrToL(s);
  }

  /** `to_uint32` of a negative numeral wraps round modulo 2^32. */
  lemma ToUInt32WrapsNegative(n: int32, rest: string)
    requires n < 0
    requires EndsNumeral(rest)
    ensures ToUInt32(IntToString(n) + rest) == n + 0x1_0000_0000
  {
    var s := IntToString(n) + rest;
    StrToLReadsIntToString(n, rest);
    ToUInt32OfStrToL(s);
  }

  /** A count field followed by the file name it was joined with:
      `"100/a_CID.ini"` reads as 100. */
  lemma ToInt32ReadsCountBeforeFilename()
    ensures ToInt32("100/a_CID.ini") == 100
  {
    assert NatToString(100) == "100" by {
      assert NatToString(1) == "1";
      assert NatToString(10) == NatToString(1) + "0";
    }
    assert IntToString(100) + "/a_CID.ini" == "100/a_CID.ini";
    ToInt32ReadsIntToString(100, "/a_CID.ini");
  }

  /** Text with no digits at all reads as 0. */
  lemma StrToLOfNoDigits(s: string)
    requires |s| > 0 && !IsSpace(s[0]) && s[0] != '+' && s[0] != '-' && !IsDecimalDigit(s[0])
    ensures StrToL(s) == 0
  {
    assert SkipSpace(s) == s;
    assert RunLength(s, 10) == 0;
    assert s[..0] == "";
    assert Unsigned(s) == 0;
  }

  /** A digit run followed by a terminator is read as the run's value. */
  lemma MagnitudeOfDigits(d: string, rest: string, base: nat)
    requires forall i | 0 <= i < |d| :: IsDigitIn(d[i], base)
    requires |rest| == 0 || !IsDigitIn(rest[0], base)
    ensures Magnitude(d + rest, base) == DigitsValue(d, base)
  {
    RunLengthOfDigits(d, rest, base);
    assert (d + rest)[..|d|] == d;
  }

  lemma HexDigitsValue()
    ensures DigitsValue("1F", 16) == 31
  {
    assert "1F"[..1] == "1";
    assert "1"[..0] == "";
  }

  lemma OctalDigitsValue()
    ensures DigitsValue("017", 8) == 15
    ensures DigitsValue("0", 8) == 0
  {
    assert "017"[..2] == "01";
    assert "01"[..1] == "0";
    assert "0"[..0] == "";
  }

  /** The unsigned part of `0x` followed by hexadecimal digits is their value. */
  lemma UnsignedOfHex(d: string, rest: string)
    requires |d| > 0 && forall i | 0 <= i < |d| :: IsDigitIn(d[i], 16)
    requires |rest| == 0 || !IsDigitIn(rest[0], 16)
    ensures Unsigned("0x" + d + rest) == DigitsValue(d, 16)
  {
    var t := d + rest;
    ConcatAssoc("0x", d, rest);
    var r := "0x" + t;
    assert r[0] == '0' && r[1] == 'x' && r[2] == t[0] == d[0];
    assert r[2..] == t;
    MagnitudeOfDigits(d, rest, 16);
  }

  /** The unsigned part of octal digits led by `0` is their value, unless
      a lone `0` is followed by an `x` (which may start a hexadecimal prefix). */
  lemma UnsignedOfOctal(d: string, rest: string)
    requires |d| > 0 && d[0] == '0' && forall i | 0 <= i < |d| :: IsDigitIn(d[i], 8)
    requires |rest| == 0 || !IsDigitIn(rest[0], 8)
    requires |d| == 1 ==> |rest| == 0 || (rest[0] != 'x' && rest[0] != 'X')
    ensures Unsigned(d + rest) == DigitsValue(d, 8)
  {
    var r := d + rest;
    assert r[0] == '0';
    assert |r| >= 2 ==> r[1] != 'x' && r[1] != 'X' by {
      if |d| >= 2 { assert r[1] == d[1]; } else if |r| >= 2 { assert r[1] == rest[0]; }
    }
    assert NumeralBase(r) == 8;
    MagnitudeOfDigits(d, rest, 8);
  }

  /** A leading `0x` followed by a hexadecimal digit selects base 16: the
      hexadecimal run is read and the text after it is ignored. */
  lemma StrToLReadsHexNumeral(d: string, rest: string)
    requires |d| > 0 && forall i | 0 <= i < |d| :: IsDigitIn(d[i], 16)
    requires |rest| == 0 || !IsDigitIn(rest[0], 16)
    requires DigitsValue(d, 16) <= LONG_MAX
    ensures StrToL("0x" + d + rest) == DigitsValue(d, 16)
  {
    var s := "0x" + d + rest;
    assert s[0] == '0';
    StrToLOfUnsigned(s);
    UnsignedOfHex(d, rest);
  }

  /** Any other leading `0` selects base 8: the octal run is read and the
      text after it, an `8` or `9` included, is ignored. */
  lemma StrToLReadsOctalNumeral(d: string, rest: string)
    requires |d| > 0 && d[0] == '0' && forall i | 0 <= i < |d| :: IsDigitIn(d[i], 8)
    requires |rest| == 0 || !IsDigitIn(rest[0], 8)
    requires |d| == 1 ==> |rest| == 0 || (rest[0] != 'x' && rest[0] != 'X')
    requires DigitsValue(d, 8) <= LONG_MAX
    ensures StrToL(d + rest) == DigitsValue(d, 8)
  {
    assert (d + rest)[0] == '0';
    StrToLOfUnsigned(d + rest);
    UnsignedOfOctal(d, rest);
  }

  /** A character no numeral can hold or start with: not white space, not
      a sign, and not a digit in any base. `~` is one. */
  predicate IsTerminator(c: char) {
    !IsSpace(c) && c != '+' && c != '-' && DigitValue(c) == 36
  }

  lemma {:induction false} SkipSpaceAppend(p: string, s: string)
    requires |s| > 0 && !IsSpace(s[0])
    ensures SkipSpace(p + s) == SkipSpace(p) + s
  {
    if |p| > 0 {
      assert (p + s)[0] == p[0];
      if IsSpace(p[0]) {
        assert (p + s)[1..] == p[1..] + s;
        SkipSpaceAppend(p[1..], s);
      }
    } else {
      assert p + s == s;
    }
  }

  lemma {:induction false} RunLengthAppend(p: string, s: string, base: nat)
    requires |s| > 0 && !IsDigitIn(s[0], base)
    ensures RunLength(p + s, base) == RunLength(p, base)
  {
    if |p| > 0 {
      assert (p + s)[0] == p[0];
      if IsDigitIn(p[0], base) {
        assert (p + s)[1..] == p[1..] + s;
        RunLengthAppend(p[1..], s, base);
      }
    } else {
      assert p + s == s;
    }
  }

  lemma MagnitudeAppend(p: string, s: string, base: nat)
    requires |s| > 0 && !IsDigitIn(s[0], base)
    ensures Magnitude(p + s, base) == Magnitude(p, base)
  {
    RunLengthAppend(p, s, base);
    var n := RunLength(p, base);
    assert (p + s)[..n] == p[..n];
  }

  /** A terminator cannot complete a `0x` prefix, so the base is the one
      the text before it selects, and the digits read are the same. */
  lemma UnsignedAppend(p: string, s: string)
    requires |s| > 0 && IsTerminator(s[0])
    ensures Unsigned(p + s) == Unsigned(p)
  {
    var r := p + s;
    assert NumeralBase(r) == NumeralBase(p) by {
      if |p| >= 3 { assert r[0] == p[0] && r[1] == p[1] && r[2] == p[2]; }
      else if |p| == 2 { assert r[0] == p[0] && r[1] == p[1] && r[2] == s[0]; }
      else if |p| == 1 { assert r[0] == p[0] && r[1] == s[0]; }
      else { assert r[0] == s[0]; }
    }
    if NumeralBase(p) == 16 {
      assert r[2..] == p[2..] + s;
      MagnitudeAppend(p[2..], s, 16);
    } else {
      MagnitudeAppend(p, s, NumeralBase(p));
    }
  }

  lemma SignedAppend(t: string, s: string)
    requires |s| > 0 && IsTerminator(s[0])
    ensures Signed(t + s) == Signed(t)
  {
    if |t| > 0 {
      assert (t + s)[0] == t[0];
      if t[0] == '-' || t[0] == '+' {
        assert (t + s)[1..] == t[1..] + s;
        UnsignedAppend(t[1..], s);
      } else {
        UnsignedAppend(t, s);
      }
    } else {
      assert t + s == s;
      UnsignedAppend(t, s);
    }
  }

  /** `strtol` reads nothing past a terminator: whatever follows it, the
      value is that of the text before it. */
  lemma StrToLStopsAtTerminator(p: string, s: string)
    requires |s| > 0 && IsTerminator(s[0])
    ensures StrToL(p + s) == StrToL(p)
  {
    SkipSpaceAppend(p, s);
    SignedAppend(SkipSpace(p), s);
  }

  /** `to_uint32` of `0x` and hexadecimal digits alone is their value. */
  lemma ToUInt32ReadsHex(d: string)
    requires |d| > 0 && forall i | 0 <= i < |d| :: IsDigitIn(d[i], 16)
    requires DigitsValue(d, 16) <= LONG_MAX
    ensures ToUInt32("0x" + d) == DigitsValue(d, 16)
  {
    var s := "0x" + d;
    assert s + "" == s;
    StrToLReadsHexNumeral(d, "");
    ToUInt32OfStrToL(s);
  }

  /** `"0x1F~Skyrim.esm"` reads as 31. */
  lemma StrToLReadsHex()
    ensures StrToL("0x" + "1F" + "~Skyrim.esm") == 31
  {
    HexDigitsValue();
    StrToLReadsHexNumeral("1F", "~Skyrim.esm");
  }

  /** `"017|2"` reads as 15, and `"09"` stops at the `9` and reads as 0. */
  lemma StrToLReadsOctal()
    ensures StrToL("017" + "|2") == 15
    ensures StrToL("0" + "9") == 0
  {
    OctalDigitsValue();
    StrToLReadsOctalNumeral("017", "|2");
    StrToLReadsOctalNumeral("0", "9");
  }
}

=== FILE: parser.dfy ===
/** Rule strings of the current pipeline: classification by punctuation
    shape, tokenisation into a `DistrToken`, and the routing of every
    configured value into the three conflict-test maps. A rule reaches the
    parser with `/<file name>` appended, so the file name is part of the
    text that is classified. */
module Parser {
  import opened Base
  import opened Numbers
  import opened Maps

  /** The three features the classifier looks at: is there a `-` anywhere,
      is there a `^` anywhere, and how many `|` are there. */
  datatype Shape = Shape(minus: bool, caret: bool, bars: nat)

  function ShapeOf(s: string): Shape {
    Shape('-' in s, '^' in s, CountOf(s, '|'))
  }

  /** The five shapes that classify as an operation. Being a map, the table
      gives each shape at most one kind: the rules never overlap. */
  const AcceptingShapes: map<Shape, DistrType> := map[
    Shape(false, false, 1) := Add,
    Shape(true, false, 1) := Remove,
    Shape(true, false, 0) := RemoveAll,
    Shape(false, true, 2) := Replace,
    Shape(false, true, 1) := ReplaceAll]

  /** `Parser::ClassifyString` */
  function ClassifyString(s: string): (r: DistrType)
    ensures r == (if ShapeOf(s) in AcceptingShapes then AcceptingShapes[ShapeOf(s)] else Error)
    ensures r == Add <==> '-' !in s && '^' !in s && CountOf(s, '|') == 1
    ensures r == Remove <==> '-' in s && '^' !in s && CountOf(s, '|') == 1
    ensures r == RemoveAll <==> '-' in s && '^' !in s && CountOf(s, '|') == 0
    ensures r == Replace <==> '-' !in s && '^' in s && CountOf(s, '|') == 2
    ensures r == ReplaceAll <==> '-' !in s && '^' in s && CountOf(s, '|') == 1
  {
    var minus := Find(s, '-');
    var caret := Find(s, '^');
    var barCount := CountOf(s, '|');
    if !IsPresent(minus) && !IsPresent(caret) && barCount == 1 then Add
    else if IsPresent(minus) && !IsPresent(caret) && barCount == 1 then Remove
    else if IsPresent(minus) && !IsPresent(caret) && barCount == 0 then RemoveAll
    else if !IsPresent(minus) && IsPresent(caret) && barCount == 2 then Replace
    else if !IsPresent(minus) && IsPresent(caret) && barCount == 1 then ReplaceAll
    else Error
  }

  /** `Parser::Tokenize(str, to)`. Every token carries `to` and the text after
      the first `/` as its file name; the other fields depend on the kind. */
  function Tokenize(s: string, to: string): (r: DistrToken)
    ensures WellFormed(r)
    ensures r.distrType == ClassifyString(s)
    ensures r.toIdentifier == to
    ensures r.filename == After(s, '/')
    ensures r.distrType == Add ==>
      r.identifier == Before(s, '|') && r.count == Some(ToInt32(After(s, '|'))) && r.rhs.None? && r.rhsCount.None?
    ensures r.distrType == Remove ==>
      var bar := |Before(s, '|')|;
      r.identifier == (if bar == 0 then s[1..] else s[1..bar])
      && r.count == Some(ToInt32(After(s, '|'))) && r.rhs.None? && r.rhsCount.None?
    ensures r.distrType == RemoveAll ==>
      |s| > 0 && r.identifier == s[1..] && r.count.None? && r.rhs.None? && r.rhsCount.None?
    ensures r.distrType == Replace ==>
      var lhs := Before(s, '^');
      && r.identifier == Before(lhs, '|')
      && ('|' in lhs ==> r.count == Some(ToInt32(After(lhs, '|'))))
      && ('|' !in lhs ==> r.count.None?)
    ensures r.distrType == ReplaceAll ==> r.identifier == Before(s, '^') && r.count.None?
    ensures IsReplace(r.distrType) ==>
      var rhs := After(s, '^');
      r.rhs == Some(Before(rhs, '|')) && r.rhsCount == Some(ToInt32(After(rhs, '|')))
    ensures r.distrType == Error ==> r.identifier == "" && r.count.None? && r.rhs.None? && r.rhsCount.None?
  {
    var filename := After(s, '/');
    var lhs := Before(s, '^');
    var rhs := After(s, '^');
    var rhsDistr := Before(rhs, '|');
    var rhsCount := ToInt32(After(rhs, '|'));
    match ClassifyString(s)
    case Add =>
      DistrToken(Add, filename, to, Before(s, '|'), Some(ToInt32(After(s, '|'))), None, None)
    case Remove =>
      // `str.substr(1, bar - 1)`: with the bar at index 0 the count wraps to
      // `npos` and the identifier runs to the end of the string.
      var bar := |Before(s, '|')|;
      var identifier := if bar == 0 then s[1..] else s[1..bar];
      DistrToken(Remove, filename, to, identifier, Some(ToInt32(After(s, '|'))), None, None)
    case RemoveAll =>
      DistrToken(RemoveAll, filename, to, s[1..], None, None, None)
    case Replace =>
      if '|' in lhs then
        DistrToken(Replace, filename, to, Before(lhs, '|'), Some(ToInt32(After(lhs, '|'))), Some(rhsDistr), Some(rhsCount))
      else
        DistrToken(Replace, filename, to, lhs, None, Some(rhsDistr), Some(rhsCount))
    case ReplaceAll =>
      DistrToken(ReplaceAll, filename, to, lhs, None, Some(rhsDistr), Some(rhsCount))
    case Error =>
      DistrToken(Error, filename, to, "", None, None, None)
  }

  // ---------------------------------------------------------------------
  // The rule grammar, and what the tokenizer makes of well-formed rules.

  /** A count a rule can spell without a sign and read back unclamped. */
  type Count = n: int | 0 <= n <= 0x7FFF_FFFF

  /** The rules a configuration file is meant to hold:
      `Item|n`, `-Item|n`, `-Item`, `Old|n^New|m` and `Old^New|m`. */
  datatype Rule =
    | AddRule(item: string, count: Count)
    | RemoveRule(item: string, count: Count)
    | RemoveAllRule(item: string)
    | ReplaceRule(item: string, count: Count, replacement: string, replacementCount: Count)
    | ReplaceAllRule(item: string, replacement: string, replacementCount: Count)

  /** Text that leaves the classification alone: no `-`, `^` or `|`. */
  predicate Neutral(s: string) {
    '-' !in s && '^' !in s && '|' !in s
  }

  /** An identifier: neutral text that also holds no `/`. */
  predicate Plain(s: string) {
    Neutral(s) && '/' !in s
  }

  predicate ValidRule(r: Rule) {
    match r
    case AddRule(item, _) => Plain(item)
    case RemoveRule(item, _) => Plain(item)
    case RemoveAllRule(item) => Plain(item)
    case ReplaceRule(item, _, rep, _) => Plain(item) && Plain(rep)
    case ReplaceAllRule(item, rep, _) => Plain(item) && Plain(rep)
  }

  function Render(r: Rule): string {
    match r
    case AddRule(item, n) => item + "|" + NatToString(n)
    case RemoveRule(item, n) => "-" + item + "|" + NatToString(n)
    case RemoveAllRule(item) => "-" + item
    case ReplaceRule(item, n, rep, m) => item + "|" + NatToString(n) + "^" + rep + "|" + NatToString(m)
    case ReplaceAllRule(item, rep, m) => item + "^" + rep + "|" + NatToString(m)
  }

  /** The value joined with the name of the file it came from. */
  function Joined(value: string, file: string): string {
    value + "/" + file
  }

  /** The token each rule stands for. A remove-all identifier keeps the
      `/<file name>` suffix, because it is everything after the leading `-`. */
  function TokenOf(r: Rule, file: string, to: string): DistrToken {
    match r
    case AddRule(item, n) => DistrToken(Add, file, to, item, Some(n as int32), None, None)
    case RemoveRule(item, n) => DistrToken(Remove, file, to, item, Some(n as int32), None, None)
    case RemoveAllRule(item) => DistrToken(RemoveAll, file, to, item + "/" + file, None, None, None)
    case ReplaceRule(item, n, rep, m) =>
      DistrToken(Replace, file, to, item, Some(n as int32), Some(rep), Some(m as int32))
    case ReplaceAllRule(item, rep, m) =>
      DistrToken(ReplaceAll, file, to, item, None, Some(rep), Some(m as int32))
  }

  function KindOf(r: Rule): DistrType {
    match r
    case AddRule(_, _) => Add
    case RemoveRule(_, _) => Remove
    case RemoveAllRule(_) => RemoveAll
    case ReplaceRule(_, _, _, _) => Replace
    case ReplaceAllRule(_, _, _) => ReplaceAll
  }

  function Combine(a: Shape, b: Shape): Shape {
    Shape(a.minus || b.minus, a.caret || b.caret, a.bars + b.bars)
  }

  lemma ShapeOfConcat(a: string, b: string)
    ensures ShapeOf(a + b) == Combine(ShapeOf(a), ShapeOf(b))
  {
    CountOfAppend(a, b, '|');
  }

  lemma ShapeOfNeutral(s: string)
    requires Neutral(s)
    ensures ShapeOf(s) == Shape(false, false, 0)
  {
  }

  lemma ShapeOfPunctuation()
    ensures ShapeOf("|") == Shape(false, false, 1)
    ensures ShapeOf("-") == Shape(true, false, 0)
    ensures ShapeOf("^") == Shape(false, true, 0)
    ensures ShapeOf("/") == Shape(false, false, 0)
  {
    assert "|"[1..] == "";
    assert "-"[1..] == "";
    assert "^"[1..] == "";
    assert "/"[1..] == "";
  }

  lemma DigitsArePlain(n: nat)
    ensures Plain(NatToString(n))
  {
    var d := NatToString(n);
    assert forall i | 0 <= i < |d| :: IsDecimalDigit(d[i]);
  }

  /** The shape of a rendered rule joined with an ordinary file name is the
      shape its kind is classified by. */
  lemma ClassifyJoinedRule(r: Rule, file: string)
    requires ValidRule(r) && Neutral(file)
    ensures ClassifyString(Joined(Render(r), file)) == KindOf(r)
  {
    ShapeOfPunctuation();
    ShapeOfNeutral(file);
    var s := Joined(Render(r), file);
    match r
    case AddRule(item, n) =>
      var d := NatToString(n);
      DigitsArePlain(n);
      ShapeOfNeutral(item); ShapeOfNeutral(d);
      ShapeOfConcat(item, "|"); ShapeOfConcat(item + "|", d);
      ShapeOfConcat(item + "|" + d, "/"); ShapeOfConcat(item + "|" + d + "/", file);
      assert ShapeOf(s) == Shape(false, false, 1);
    case RemoveRule(item, n) =>
      var d := NatToString(n);
      DigitsArePlain(n);
      ShapeOfNeutral(item); ShapeOfNeutral(d);
      ShapeOfConcat("-", item); ShapeOfConcat("-" + item, "|"); ShapeOfConcat("-" + item + "|", d);
      ShapeOfConcat("-" + item + "|" + d, "/"); ShapeOfConcat("-" + item + "|" + d + "/", file);
      assert ShapeOf(s) == Shape(true, false, 1);
    case RemoveAllRule(item) =>
      ShapeOfNeutral(item);
      ShapeOfConcat("-", item); ShapeOfConcat("-" + item, "/"); ShapeOfConcat("-" + item + "/", file);
      assert ShapeOf(s) == Shape(true, false, 0);
    case ReplaceRule(item, n, rep, m) =>
      var dn := NatToString(n);
      var dm := NatToString(m);
      DigitsArePlain(n); DigitsArePlain(m);
      ShapeOfNeutral(item); ShapeOfNeutral(dn); ShapeOfNeutral(rep); ShapeOfNeutral(dm);
      ShapeOfConcat(item, "|"); ShapeOfConcat(item + "|", dn); ShapeOfConcat(item + "|" + dn, "^");
      ShapeOfConcat(item + "|" + dn + "^", rep); ShapeOfConcat(item + "|" + dn + "^" + rep, "|");
      ShapeOfConcat(item + "|" + dn + "^" + rep + "|", dm);
      ShapeOfConcat(item + "|" + dn + "^" + rep + "|" + dm, "/");
      ShapeOfConcat(item + "|" + dn + "^" + rep + "|" + dm + "/", file);
      assert ShapeOf(s) == Shape(false, true, 2);
    case ReplaceAllRule(item, rep, m) =>
      var dm := NatToString(m);
      DigitsArePlain(m);
      ShapeOfNeutral(item); ShapeOfNeutral(rep); ShapeOfNeutral(dm);
      ShapeOfConcat(item, "^"); ShapeOfConcat(item + "^", rep); ShapeOfConcat(item + "^" + rep, "|");
      ShapeOfConcat(item + "^" + rep + "|", dm); ShapeOfConcat(item + "^" + rep + "|" + dm, "/");
      ShapeOfConcat(item + "^" + rep + "|" + dm + "/", file);
      assert ShapeOf(s) == Shape(false, true, 1);
  }

  /** The file name of a joined value is the text after the value, provided
      the value itself holds no `/`. */
  lemma FileNameOfJoined(value: string, file: string)
    requires '/' !in value
    ensures After(Joined(value, file), '/') == file
  {
    SplitAt(value, '/', file);
  }

  /** A count followed by the file suffix reads back as the count. */
  lemma CountOfJoined(n: Count, file: string)
    ensures ToInt32(NatToString(n) + "/" + file) == n
  {
    assert ("/" + file)[0] == '/';
    ToInt32ReadsIntToString(n, "/" + file);
    assert IntToString(n) == NatToString(n);
    ConcatAssoc(NatToString(n), "/", file);
  }

  lemma TokenizeAddRule(item: string, n: Count, file: string, to: string)
    requires Plain(item) && Neutral(file)
    ensures Tokenize(Joined(Render(AddRule(item, n)), file), to) == TokenOf(AddRule(item, n), file, to)
  {
    var d := NatToString(n);
    DigitsArePlain(n);
    var s := Joined(Render(AddRule(item, n)), file);
    ClassifyJoinedRule(AddRule(item, n), file);
    var tail := d + "/" + file;
    assert s == item + "|" + tail;
    SplitAt(item, '|', tail);
    CountOfJoined(n, file);
    FileNameOfJoined(item + "|" + d, file);
  }

  /** A rendered remove rule around its `|`: the identifier sits between
      the `-` and the bar, and the count and the file name follow. */
  lemma RemoveRuleSides(item: string, n: Count, file: string)
    requires Plain(item)
    ensures var s := Joined(Render(RemoveRule(item, n)), file);
      && |Before(s, '|')| == |item| + 1
      && s[1..|item| + 1] == item
      && After(s, '|') == NatToString(n) + "/" + file
      && After(s, '/') == file
  {
    var d := NatToString(n);
    DigitsArePlain(n);
    var s := Joined(Render(RemoveRule(item, n)), file);
    var tail := d + "/" + file;
    assert s == ("-" + item) + "|" + tail;
    SplitAt("-" + item, '|', tail);
    assert s[1..|item| + 1] == item;
    FileNameOfJoined("-" + item + "|" + d, file);
  }

  lemma TokenizeRemoveRule(item: string, n: Count, file: string, to: string)
    requires Plain(item) && Neutral(file)
    ensures Tokenize(Joined(Render(RemoveRule(item, n)), file), to) == TokenOf(RemoveRule(item, n), file, to)
  {
    ClassifyJoinedRule(RemoveRule(item, n), file);
    RemoveRuleSides(item, n, file);
    CountOfJoined(n, file);
  }

  lemma TokenizeRemoveAllRule(item: string, file: string, to: string)
    requires Plain(item) && Neutral(file)
    ensures Tokenize(Joined(Render(RemoveAllRule(item)), file), to) == TokenOf(RemoveAllRule(item), file, to)
  {
    var s := Joined(Render(RemoveAllRule(item)), file);
    ClassifyJoinedRule(RemoveAllRule(item), file);
    assert s[1..] == item + "/" + file;
    FileNameOfJoined("-" + item, file);
  }

  /** The two sides of a rendered replace rule around its `^`. */
  lemma ReplaceRuleSides(item: string, n: Count, rep: string, m: Count, file: string)
    requires Plain(item) && Plain(rep)
    ensures var s := Joined(Render(ReplaceRule(item, n, rep, m)), file);
      && Before(s, '^') == item + "|" + NatToString(n)
      && After(s, '^') == rep + "|" + (NatToString(m) + "/" + file)
      && After(s, '/') == file
  {
    var dn := NatToString(n);
    var dm := NatToString(m);
    DigitsArePlain(n); DigitsArePlain(m);
    var s := Joined(Render(ReplaceRule(item, n, rep, m)), file);
    var lhs := item + "|" + dn;
    assert s == lhs + "^" + (rep + "|" + (dm + "/" + file));
    SplitAt(lhs, '^', rep + "|" + (dm + "/" + file));
    assert s == (lhs + "^" + rep + "|" + dm) + "/" + file;
    FileNameOfJoined(lhs + "^" + rep + "|" + dm, file);
  }

  /** An identifier and a bar-separated count, as the left side of a replace rule. */
  lemma CountedIdentifier(item: string, n: Count)
    requires Plain(item)
    ensures Before(item + "|" + NatToString(n), '|') == item
    ensures After(item + "|" + NatToString(n), '|') == NatToString(n)
    ensures ToInt32(NatToString(n)) == n
  {
    SplitAt(item, '|', NatToString(n));
    ToInt32ReadsIntToString(n, "");
    assert IntToString(n) + "" == NatToString(n);
  }

  lemma TokenizeReplaceRule(item: string, n: Count, rep: string, m: Count, file: string, to: string)
    requires Plain(item) && Plain(rep) && Neutral(file)
    ensures Tokenize(Joined(Render(ReplaceRule(item, n, rep, m)), file), to) == TokenOf(ReplaceRule(item, n, rep, m), file, to)
  {
    ClassifyJoinedRule(ReplaceRule(item, n, rep, m), file);
    ReplaceRuleSides(item, n, rep, m, file);
    CountedIdentifier(item, n);
    SplitAt(rep, '|', NatToString(m) + "/" + file);
    CountOfJoined(m, file);
  }

  /** The two sides of a rendered replace-all rule around its `^`. */
  lemma ReplaceAllRuleSides(item: string, rep: string, m: Count, file: string)
    requires Plain(item) && Plain(rep)
    ensures var s := Joined(Render(ReplaceAllRule(item, rep, m)), file);
      && Before(s, '^') == item
      && After(s, '^') == rep + "|" + (NatToString(m) + "/" + file)
      && After(s, '/') == file
  {
    var dm := NatToString(m);
    DigitsArePlain(m);
    var s := Joined(Render(ReplaceAllRule(item, rep, m)), file);
    var rhs := rep + "|" + (dm + "/" + file);
    assert s == item + "^" + rhs;
    SplitAt(item, '^', rhs);
    assert s == (item + "^" + rep + "|" + dm) + "/" + file;
    FileNameOfJoined(item + "^" + rep + "|" + dm, file);
  }

  lemma TokenizeReplaceAllRule(item: string, rep: string, m: Count, file: string, to: string)
    requires Plain(item) && Plain(rep) && Neutral(file)
    ensures Tokenize(Joined(Render(ReplaceAllRule(item, rep, m)), file), to) == TokenOf(ReplaceAllRule(item, rep, m), file, to)
  {
    ClassifyJoinedRule(ReplaceAllRule(item, rep, m), file);
    ReplaceAllRuleSides(item, rep, m, file);
    SplitAt(rep, '|', NatToString(m) + "/" + file);
    CountOfJoined(m, file);
  }

  /** Every well-formed rule, joined with an ordinary file name, tokenizes
      to the token it stands for. */
  lemma TokenizeRenderedRule(r: Rule, file: string, to: string)
    requires ValidRule(r) && Neutral(file)
    ensures Tokenize(Joined(Render(r), file), to) == TokenOf(r, file, to)
  {
    match r
    case AddRule(item, n) => TokenizeAddRule(item, n, file, to);
    case RemoveRule(item, n) => TokenizeRemoveRule(item, n, file, to);
    case RemoveAllRule(item) => TokenizeRemoveAllRule(item, file, to);
    case ReplaceRule(item, n, rep, m) => TokenizeReplaceRule(item, n, rep, m, file, to);
    case ReplaceAllRule(item, rep, m) => TokenizeReplaceAllRule(item, rep, m, file, to);
  }

  /** An add rule from a file whose name holds a `-` classifies as a
      removal, and its identifier loses its first character. */
  lemma HyphenatedFileNameTurnsAddIntoRemove(item: string, n: Count, file: string, to: string)
    requires Plain(item) && |item| > 0
    requires '-' in file && '^' !in file && '|' !in file
    ensures Tokenize(Joined(Render(AddRule(item, n)), file), to) == DistrToken(Remove, file, to, item[1..], Some(n as int32), None, None)
  {
    var d := NatToString(n);
    DigitsArePlain(n);
    var s := Joined(Render(AddRule(item, n)), file);
    ShapeOfPunctuation();
    ShapeOfNeutral(item); ShapeOfNeutral(d);
    assert ShapeOf(file) == Shape(true, false, 0);
    ShapeOfConcat(item, "|"); ShapeOfConcat(item + "|", d);
    ShapeOfConcat(item + "|" + d, "/"); ShapeOfConcat(item + "|" + d + "/", file);
    assert ClassifyString(s) == Remove;
    var tail := d + "/" + file;
    assert s == item + "|" + tail;
    SplitAt(item, '|', tail);
    assert s[1..|item|] == item[1..];
    CountOfJoined(n, file);
    FileNameOfJoined(item + "|" + d, file);
  }

  // ---------------------------------------------------------------------
  // Routing every configured value into the conflict-test maps.

  /** The three conflict-test maps; error values land in the add map. */
  datatype Family = AddFamily | RemoveFamily | ReplaceFamily

  function FamilyOf(t: DistrType): Family {
    match t
    case Remove => RemoveFamily
    case RemoveAll => RemoveFamily
    case Replace => ReplaceFamily
    case ReplaceAll => ReplaceFamily
    case _ => AddFamily
  }

  datatype TestMaps = TestMaps(add: TestMap, remove: TestMap, replace: TestMap) {
    function Get(f: Family): TestMap {
      match f
      case AddFamily => add
      case RemoveFamily => remove
      case ReplaceFamily => replace
    }

    function With(f: Family, m: TestMap): (r: TestMaps)
      ensures r.Get(f) == m
      ensures forall h: Family | h != f :: r.Get(h) == Get(h)
    {
      match f
      case AddFamily => this.(add := m)
      case RemoveFamily => this.(remove := m)
      case ReplaceFamily => this.(replace := m)
    }
  }

  const EmptyMaps := TestMaps(map[], map[], map[])

  /** One value of one key of the `[General]` section of one file. */
  datatype Entry = Entry(file: string, key: string, value: string)

  /** The token a value becomes: the value joined with its file name,
      tokenized with the key as its target. */
  function TokenOfEntry(e: Entry): DistrToken {
    Tokenize(Joined(e.value, e.file), e.key)
  }

  /** A token together with the key it is filed under. */
  datatype Submission = Submission(key: string, token: DistrToken)

  /** The values in reading order, each tokenized. */
  function Tokenized(entries: seq<Entry>): (r: seq<Submission>)
    ensures |r| == |entries|
    ensures forall i | 0 <= i < |r| :: r[i] == Submission(entries[i].key, TokenOfEntry(entries[i]))
  {
    seq(|entries|, i requires 0 <= i < |entries| => Submission(entries[i].key, TokenOfEntry(entries[i])))
  }

  /** The tokens a map holds for a key, nothing when the key is absent. */
  function Lookup(m: TestMap, key: string): seq<DistrToken> {
    if key in m then m[key] else []
  }

  /** Add a token under a key: a new one-element vector when the key is
      new, otherwise appended to the existing vector. */
  function Submit(m: TestMap, key: string, t: DistrToken): (r: TestMap)
    ensures r.Keys == m.Keys + {key}
    ensures Lookup(r, key) == Lookup(m, key) + [t]
    ensures forall k | k in m && k != key :: r[k] == m[k]
  {
    if key !in m then m[key := [t]] else m[key := m[key] + [t]]
  }

  /** The routing loop: each token goes to the map of its kind's family. */
  function Route(prior: TestMaps, subs: seq<Submission>): TestMaps
    decreases |subs|
  {
    if |subs| == 0 then prior
    else
      var before := Route(prior, subs[..|subs| - 1]);
      var s := subs[|subs| - 1];
      var f := FamilyOf(s.token.distrType);
      before.With(f, Submit(before.Get(f), s.key, s.token))
  }

  /** `ParseINIs` after reading: every value of every key of every file,
      tokenized and routed into the maps. */
  function ParseEntries(prior: TestMaps, entries: seq<Entry>): TestMaps {
    Route(prior, Tokenized(entries))
  }

  /** The token of one submission if it is filed under `key` in family `f`. */
  function Contribution(s: Submission, key: string, f: Family): seq<DistrToken> {
    if s.key == key && FamilyOf(s.token.distrType) == f then [s.token] else []
  }

  /** Reference definition: the tokens filed under `key` whose kind belongs
      to family `f`, in reading order. */
  function Routed(subs: seq<Submission>, key: string, f: Family): seq<DistrToken> {
    if |subs| == 0 then []
    else
      var s := subs[0];
      Contribution(s, key, f) + Routed(subs[1..], key, f)
  }

  lemma {:induction false} RoutedAppend(a: seq<Submission>, b: seq<Submission>, key: string, f: Family)
    ensures Routed(a + b, key, f) == Routed(a, key, f) + Routed(b, key, f)
  {
    if |a| == 0 {
      assert a + b == b;
      assert Routed(a, key, f) == [];
    } else {
      var head := Contribution(a[0], key, f);
      assert (a + b)[0] == a[0] && (a + b)[1..] == a[1..] + b;
      assert Routed(a + b, key, f) == head + Routed(a[1..] + b, key, f);
      assert Routed(a, key, f) == head + Routed(a[1..], key, f);
      RoutedAppend(a[1..], b, key, f);
      ConcatAssoc(head, Routed(a[1..], key, f), Routed(b, key, f));
    }
  }

  /** The last submission contributes its token after those of the rest. */
  lemma RoutedSnoc(subs: seq<Submission>, key: string, f: Family)
    requires |subs| > 0
    ensures var s := subs[|subs| - 1];
      Routed(subs, key, f)
        == Routed(subs[..|subs| - 1], key, f) + Contribution(s, key, f)
  {
    var s := subs[|subs| - 1];
    DropLast(subs);
    RoutedAppend(subs[..|subs| - 1], [s], key, f);
    assert Routed([s], key, f) == Contribution(s, key, f) + Routed([s][1..], key, f);
    assert [s][1..] == [];
  }

  /** No key maps to an empty vector: every vector is created holding a token. */
  predicate NoEmptyVectors(maps: TestMaps) {
    forall f: Family, k | k in maps.Get(f) :: |maps.Get(f)[k]| > 0
  }

  /** Routing never leaves a key mapped to an empty vector. */
  lemma {:induction false} RouteKeepsVectorsNonEmpty(prior: TestMaps, subs: seq<Submission>)
    requires NoEmptyVectors(prior)
    ensures NoEmptyVectors(Route(prior, subs))
    decreases |subs|
  {
    if |subs| > 0 {
      var init := subs[..|subs| - 1];
      var s := subs[|subs| - 1];
      RouteKeepsVectorsNonEmpty(prior, init);
      var before := Route(prior, init);
      var g := FamilyOf(s.token.distrType);
      var after := Route(prior, subs);
      forall h: Family, k | k in after.Get(h) ensures |after.Get(h)[k]| > 0 {
        if h == g && k == s.key {
          assert Lookup(after.Get(h), k) == Lookup(before.Get(g), k) + [s.token];
        }
      }
    }
  }

  /** One submission adds its token to exactly one vector. */
  lemma SubmitInto(maps: TestMaps, g: Family, k: string, t: DistrToken, key: string, f: Family)
    ensures Lookup(maps.With(g, Submit(maps.Get(g), k, t)).Get(f), key)
      == Lookup(maps.Get(f), key) + (if k == key && g == f then [t] else [])
  {
  }

  /** The last submission appends its token to its own key in its own family's map. */
  lemma RouteLast(prior: TestMaps, subs: seq<Submission>, key: string, f: Family)
    requires |subs| > 0
    ensures var s := subs[|subs| - 1];
      Lookup(Route(prior, subs).Get(f), key)
        == Lookup(Route(prior, subs[..|subs| - 1]).Get(f), key)
           + Contribution(s, key, f)
  {
    var s := subs[|subs| - 1];
    SubmitInto(Route(prior, subs[..|subs| - 1]), FamilyOf(s.token.distrType), s.key, s.token, key, f);
  }

  /** Routing appends, to the vector of each key in each map, exactly the
      tokens of that key's values of that map's family, in reading order. */
  lemma {:induction false} RouteAppends(prior: TestMaps, subs: seq<Submission>, key: string, f: Family)
    ensures Lookup(Route(prior, subs).Get(f), key) == Lookup(prior.Get(f), key) + Routed(subs, key, f)
    decreases |subs|
  {
    if |subs| > 0 {
      var init := subs[..|subs| - 1];
      var s := subs[|subs| - 1];
      var last := Contribution(s, key, f);
      RoutedSnoc(subs, key, f);
      RouteLast(prior, subs, key, f);
      RouteAppends(prior, init, key, f);
      ConcatAssoc(Lookup(prior.Get(f), key), Routed(init, key, f), last);
    }
  }

  /** After reading, the vector of a key in a map holds what it held before
      followed by the tokens of that key's values of that map's family; the
      key is present iff it was before or one such value exists. */
  lemma ParseEntriesSpec(prior: TestMaps, entries: seq<Entry>, key: string, f: Family)
    requires NoEmptyVectors(prior)
    ensures NoEmptyVectors(ParseEntries(prior, entries))
    ensures Lookup(ParseEntries(prior, entries).Get(f), key) == Lookup(prior.Get(f), key) + Routed(Tokenized(entries), key, f)
    ensures key in ParseEntries(prior, entries).Get(f) <==> key in prior.Get(f) || |Routed(Tokenized(entries), key, f)| > 0
  {
    RouteKeepsVectorsNonEmpty(prior, Tokenized(entries));
    RouteAppends(prior, Tokenized(entries), key, f);
  }

  /** Every routed token was filed under that key and belongs to that family. */
  lemma {:induction false} RoutedFrom(subs: seq<Submission>, key: string, f: Family, t: DistrToken)
    requires t in Routed(subs, key, f)
    ensures FamilyOf(t.distrType) == f
    ensures exists i | 0 <= i < |subs| :: subs[i] == Submission(key, t)
  {
    var s := subs[0];
    if s.key == key && FamilyOf(s.token.distrType) == f && t == s.token {
      assert subs[0] == Submission(key, t);
    } else {
      RoutedFrom(subs[1..], key, f, t);
      var i :| 0 <= i < |subs[1..]| && subs[1..][i] == Submission(key, t);
      assert subs[i + 1] == Submission(key, t);
    }
  }

  /** Each vector of the read maps holds only tokens aimed at its key, of
      its map's family, well formed, each made from one configured value. */
  lemma RoutedTokensBelong(entries: seq<Entry>, key: string, f: Family, t: DistrToken)
    requires t in Routed(Tokenized(entries), key, f)
    ensures t.toIdentifier == key && FamilyOf(t.distrType) == f && WellFormed(t)
    ensures exists e | e in entries :: e.key == key && t == TokenOfEntry(e)
  {
    RoutedFrom(Tokenized(entries), key, f, t);
    var i :| 0 <= i < |entries| && Tokenized(entries)[i] == Submission(key, t);
    assert t == TokenOfEntry(entries[i]);
  }
}

=== FILE: utility.dfy ===
/** Resolution of identifiers against the game's form directory, and the
    construction of a resolved distribution entry from a token. An
    identifier is an editor id unless it holds a `~`, in which case it reads
    `<form id>~<plugin file name>`. */
module Utility {
  import opened Base
  import opened Numbers
  import opened Forms
  import opened Maps

  /** `is_editor_id` */
  function IsEditorId(id: string): (r: bool)
    ensures r <==> '~' !in id
  {
    !IsPresent(Find(id, '~'))
  }

  datatype FormIdAndPluginName = FormIdAndPluginName(formId: uint32, pluginName: string)

  /** `get_form_id_and_plugin_name`. The number is read by `strtol` from the
      start of the identifier's buffer, so it is the numeral before the `~`
      (a `~` is never a digit); the plugin name is everything after the
      first `~`, or the whole identifier when there is none. */
  function GetFormIdAndPluginName(id: string): (r: FormIdAndPluginName)
    ensures '~' in id ==> id == Before(id, '~') + "~" + r.pluginName
    ensures '~' in id ==> r.formId == ToUInt32(Before(id, '~'))
    ensures '~' !in id ==> r.pluginName == id
  {
    FormIdStopsAtTilde(Before(id, '~'), After(id, '~'));
    FormIdAndPluginName(ToUInt32(id), After(id, '~'))
  }

  /** The form id is read from the text before the `~` alone: nothing
      after it, the plugin name included, changes the number. */
  lemma FormIdStopsAtTilde(p: string, q: string)
    ensures ToUInt32(p + "~" + q) == ToUInt32(p)
  {
    ConcatAssoc(p, "~", q);
    StrToLStopsAtTerminator(p, "~" + q);
  }

  /** `0x<hex digits>~<plugin>`, the usual spelling in configuration
      files, splits into the hexadecimal value and the plugin name. */
  lemma FormIdAndPluginNameOfHex(d: string, plugin: string)
    requires |d| > 0 && forall i | 0 <= i < |d| :: IsDigitIn(d[i], 16)
    requires DigitsValue(d, 16) <= LONG_MAX
    ensures GetFormIdAndPluginName("0x" + d + "~" + plugin) == FormIdAndPluginName(DigitsValue(d, 16), plugin)
  {
    var p := "0x" + d;
    assert '~' !in d;
    assert '~' !in "0x";
    var s := p + "~" + plugin;
    SplitAt(p, '~', plugin);
    assert Before(s, '~') == p && After(s, '~') == plugin;
    ToUInt32ReadsHex(d);
    assert GetFormIdAndPluginName(s).formId == ToUInt32(p);
  }

  /** The form id of `<decimal id>~<plugin>` is the decimal id. */
  lemma FormIdOfSpelledId(n: nat, plugin: string)
    requires n <= LONG_MAX
    ensures ToUInt32(NatToString(n) + "~" + plugin) == n
  {
    var rest := "~" + plugin;
    assert EndsNumeral(rest) by {
      assert rest[0] == '~';
    }
    ToUInt32ReadsNatToString(n, rest);
    ConcatAssoc(NatToString(n), "~", plugin);
  }

  /** An identifier spelled as a decimal form id and a plugin name splits
      back into both. */
  lemma {:induction false} FormIdAndPluginNameRoundTrip(n: nat, plugin: string)
    requires n <= LONG_MAX
    ensures GetFormIdAndPluginName(NatToString(n) + "~" + plugin) == FormIdAndPluginName(n, plugin)
  {
    var d := NatToString(n);
    assert '~' !in d by {
      assert forall i | 0 <= i < |d| :: IsDecimalDigit(d[i]);
    }
    SplitAt(d, '~', plugin);
    FormIdOfSpelledId(n, plugin);
  }

  /** The form an identifier names, whatever its kind: the editor-id table
      for editor ids, the (form id, plugin) table otherwise. */
  function LookupIdentifier(dir: Directory, id: string): (r: Option<Form>)
    ensures '~' !in id ==> r == LookupByEditorId(dir, id)
  {
    if IsEditorId(id) then LookupByEditorId(dir, id)
    else
      var fp := GetFormIdAndPluginName(id);
      LookupForm(dir, fp.formId, fp.pluginName)
  }

  /** `get_bound_object`: the named form when it is a bound object, null otherwise. */
  function GetBoundObject(dir: Directory, id: string): (r: Option<Form>)
    ensures r.Some? <==> LookupIdentifier(dir, id).Some? && LookupIdentifier(dir, id).value.isBoundObject
    ensures r.Some? ==> r == LookupIdentifier(dir, id)
  {
    if IsEditorId(id) then AsBoundObject(LookupByEditorId(dir, id))
    else
      var fp := GetFormIdAndPluginName(id);
      AsBoundObject(LookupForm(dir, fp.formId, fp.pluginName))
  }

  /** The container every failed resolution yields. */
  const NoContainer := Container(None, 0, "")

  /** `get_container`: the named form with its id and name when it is a
      container; a null container with id 0 and an empty name otherwise. */
  function GetContainer(dir: Directory, id: string): (r: Container)
    ensures r.IsTruthy() <==> LookupIdentifier(dir, id).Some? && LookupIdentifier(dir, id).value.isContainer
    ensures r.IsTruthy() ==>
      var f := LookupIdentifier(dir, id).value;
      r == Container(Some(f), f.formId, f.name)
    ensures !r.IsTruthy() ==> r == NoContainer
  {
    var form := if IsEditorId(id) then LookupByEditorId(dir, id)
      else
        var fp := GetFormIdAndPluginName(id);
        LookupForm(dir, fp.formId, fp.pluginName);
    var cont := AsContainer(form);
    if cont.Some? then Container(cont, form.value.formId, form.value.name) else NoContainer
  }

  /** A form registered under an editor id is found by that editor id. */
  lemma ResolvesEditorId(dir: Directory, editorId: string)
    requires '~' !in editorId && editorId in dir.byEditorId
    ensures LookupIdentifier(dir, editorId) == Some(dir.byEditorId[editorId])
  {
  }

  /** A form registered under (form id, plugin) is found by the identifier
      that spells both. */
  lemma ResolvesFormIdAndPlugin(dir: Directory, n: nat, plugin: string)
    requires n <= LONG_MAX && (n, plugin) in dir.byFormId
    ensures LookupIdentifier(dir, NatToString(n) + "~" + plugin) == Some(dir.byFormId[(n, plugin)])
  {
    FormIdAndPluginNameRoundTrip(n, plugin);
    var d := NatToString(n);
    assert forall i | 0 <= i < |d| :: IsDecimalDigit(d[i]);
    assert (d + "~" + plugin)[|d|] == '~';
  }

  /** The entry every failed build yields. */
  const ErrorObject := DistrObject(Error, None, None, None, None, None)

  /** A resolved entry as the distributor expects it: a failed one carries
      nothing; otherwise the object is a bound object, the container a real
      container, and a replacement object only appears, with its count, on
      a replacement kind. */
  predicate Consistent(o: DistrObject) {
    && (o.boundObject.None? ==> o == ErrorObject)
    && (o.boundObject.Some? ==>
          && o.boundObject.value.isBoundObject
          && o.container.Some? && o.container.value.IsTruthy()
          && o.container.value.container.value.isContainer)
    && (o.replaceWithObject.Some? ==>
          IsReplace(o.distrType) && o.replaceWithObject.value.isBoundObject && o.replaceWithCount.Some?)
    && (o.replaceWithObject.None? ==> o.replaceWithCount.None?)
  }

  /** `Utility::BuildDistrObject`. The replacement is read with `value()`,
      which the tokenizer's shape guarantees for replacement kinds. */
  function BuildDistrObject(dir: Directory, t: DistrToken): (r: DistrObject)
    requires WellFormed(t)
    ensures Consistent(r)
    ensures r.boundObject.Some? <==>
      GetBoundObject(dir, t.identifier).Some? && GetContainer(dir, t.toIdentifier).IsTruthy()
    ensures r.boundObject.Some? ==>
      && r.distrType == t.distrType && r.count == t.count
      && r.boundObject == GetBoundObject(dir, t.identifier)
      && r.container == Some(GetContainer(dir, t.toIdentifier))
    ensures r.replaceWithObject.Some? <==>
      r.boundObject.Some? && IsReplace(t.distrType) && GetBoundObject(dir, t.rhs.value).Some?
    ensures r.replaceWithObject.Some? ==>
      r.replaceWithObject == GetBoundObject(dir, t.rhs.value) && r.replaceWithCount == t.rhsCount
  {
    var boundObj := GetBoundObject(dir, t.identifier);
    if boundObj.Some? then
      var cont := GetContainer(dir, t.toIdentifier);
      if cont.IsTruthy() then
        if IsReplace(t.distrType) && GetBoundObject(dir, t.rhs.value).Some? then
          DistrObject(t.distrType, boundObj, t.count, GetBoundObject(dir, t.rhs.value), t.rhsCount, Some(cont))
        else
          DistrObject(t.distrType, boundObj, t.count, None, None, Some(cont))
      else ErrorObject
    else ErrorObject
  }

  /** A token whose item is not found as a bound object, or whose container
      is not found as a container, builds the error entry, whatever else it
      says. */
  lemma UnresolvedBuildsError(dir: Directory, t: DistrToken)
    requires WellFormed(t)
    requires GetBoundObject(dir, t.identifier).None? || !GetContainer(dir, t.toIdentifier).IsTruthy()
    ensures BuildDistrObject(dir, t) == ErrorObject
  {
  }

  /** A replacement whose replacement item does not resolve still builds
      an entry: it keeps its kind, item, count and container and carries
      no replacement object and no replacement count. */
  lemma UnresolvedReplacementIsDropped(dir: Directory, t: DistrToken)
    requires WellFormed(t) && IsReplace(t.distrType)
    requires GetBoundObject(dir, t.identifier).Some? && GetContainer(dir, t.toIdentifier).IsTruthy()
    requires LookupIdentifier(dir, t.rhs.value).None?
    ensures BuildDistrObject(dir, t) ==
      DistrObject(t.distrType, GetBoundObject(dir, t.identifier), t.count, None, None, Some(GetContainer(dir, t.toIdentifier)))
  {
  }
}
